=== FILE: README.md ===
# Bright Safari portfolio: contact form and page rules, modelled in Dafny

The portfolio site's only logic with behaviour worth stating exactly is its contact form and a
handful of page-script decision rules. This project models them as pure functions over
immutable datatypes:

- **contact-handler.php** (module `ContactHandler`, with PHP value and string semantics in
  `Php`): the required-field loop, `validate_input` (trim, stripslashes, htmlspecialchars), the
  subject-code map, the owner's email body and headers, the decision to send the sender a copy,
  the SMS text, the append to `contact_messages.json`, and the JSON reply. A request is a method
  plus a decoded JSON body (`Json.Value`); everything the script learns from outside (PHP's
  email validator, what `mail()` returns, the date, the log file, whether writing it works) is
  an `Env` parameter.
- **scripts/form-backup.js** (module `FormBackup`): `validate`, the three channels (EmailJS,
  the FormSubmit relay, the localStorage backup) with their payloads and their catch-to-`false`
  behaviour, the "some channel succeeded" aggregation and `handleSubmit`.
- **scripts/main.js** (modules `Theme`, `MobileMenu`, `Navbar`, `SectionTracking`, `Device`,
  `PageForm`, and `FormStatus` shared with form-backup.js): theme initialisation and toggling,
  the mobile menu, the navbar scroll state machine, the once-per-section view tracking, the
  resize device classification, the page's own weaker form check and the status element.

`Text` holds the generic trim, prefix and line helpers both languages use; `Wrappers` holds
`Option`/`Result`. PHP strings are byte strings; here each `char` stands for one byte.
JavaScript strings are modelled as sequences of code points. The PHP semantics are those of
PHP 8.0 or later: trim() of an array raises a TypeError, and a number compared with a
non-numeric string is compared as text.

The model follows the code, including these behaviours a reader may not expect:

- An unknown subject code gets the label "New Message from Portfolio"; only `other` gets
  "General Inquiry".
- The client counts the local backup toward success, so a working backup alone makes a
  submission succeed.
- The server answers `success: true` whenever validation passes, whatever `mail()` returned,
  and its `methods.email`/`methods.sms` report only the owner's mail and the SMS.
- The server's required-field check runs before trimming, so a name of spaces passes it and is
  stored empty. The client `validate` trims but checks no email shape.
- The relay's success flag is compared strictly with the string "true"; a boolean `true` fails.
- validate_input() keeps line breaks inside a value, and the name goes into the Reply-To
  header as it is. `HeadersRoundTrip` therefore holds only for single-line names and emails.

## Model

| member | source | states |
|---|---|---|
| `ContactHandler.Handle` | contact-handler.php:75-191 | A non-POST request gets `success=false`, "Invalid request method." and nothing sent or logged. A POST gets the required-fields error iff some required field is PHP-empty. Past that, an array field ends the script with an uncaught TypeError. Past that, the invalid-email reply comes back iff the validator rejects the sanitised email, and success otherwise. A success is the delivery of the sanitised submission; every failure sends no mail and no SMS and leaves the log as it was |
| `ContactHandler.FirstEmpty` | contact-handler.php:78-84 | The loop finds nothing iff every required field is non-empty; otherwise it returns the first empty field, all fields before it being non-empty |
| `ContactHandler.FirstEmptyFindsMissing` | contact-handler.php:78-84 | The loop stops on a field iff some required field is empty; when it stops on none, all four keys are present |
| `ContactHandler.Sanitize` | contact-handler.php:77-97 | "Please fill in all required fields." iff a required field is empty; TypeError iff, past that, a field holds an array; past both, the invalid-email error iff the validator rejects the sanitised email and a success iff it accepts it. A success holds validate_input() of each field (an empty phone when none is set) and the body's copy flag |
| `ContactHandler.SanitizeFields` | contact-handler.php:86-97 | With all required fields present: TypeError iff some field that is read holds an array; otherwise the invalid-email error iff the validator rejects the sanitised email, and a success iff it accepts it. A success holds validate_input() of each field, an empty phone when none is set, and the copy flag |
| `ContactHandler.SanitizeField` | contact-handler.php:87-91 | `validate_input` of a decoded value fails only on an array. Otherwise it yields markup-free text (no `'` under ENT_QUOTES), and decoding that text gives the value's string trimmed and unslashed |
| `ContactHandler.CopyRequested` | contact-handler.php:92 | The copy flag holds iff `copyMe` is the string "true" or boolean true; any other value, null or absence gives no copy |
| `Php.LooseEqualsTrue` | contact-handler.php:92 | Under PHP 8 loose comparison exactly two decoded values equal "true": the string itself and boolean true |
| `Php.ToStringArg` | contact-handler.php:87-91 | A scalar passed to trim() becomes a string, and an array is refused. A string stays itself, an integer becomes its decimal digits and true becomes "1". The string is empty only for null, false or "", and a value that passed the `empty()` check becomes a truthy string |
| `Php.IntToDecimal` | contact-handler.php:87-91 | An integer field becomes its decimal digits, with a minus sign when negative. Those digits denote its magnitude; zero is exactly "0", and no other integer's digits start with 0 |
| `Php.NatToDecimal` | contact-handler.php:87-91 | The digits written for a natural number are non-empty decimal digits denoting it (see `Php.DecimalRoundTrip`); zero is exactly "0", and no other number starts with 0 |
| `Php.DecimalRoundTrip` | contact-handler.php:87-91 | Reading back the digits written for a natural number gives that number |
| `Php.ValidateInput` | contact-handler.php:28-33 | The output has no `<`, `>` or `"` (and no `'` under ENT_QUOTES); decoding its entities gives back the trimmed, unslashed input |
| `Php.ValidateInputKeepsPlainText` | contact-handler.php:28-33 | Trimmed input without backslashes comes back unchanged from decoding the sanitised value |
| `Php.SanitisedValueMayEndInSpace` | contact-handler.php:29-30 | Because trim runs before stripslashes, "a \" sanitises to "a " with its trailing space |
| `Php.HtmlSpecialChars` | contact-handler.php:31 | The escaped text has no markup character and is at least as long as the input |
| `Php.DecodeInvertsHtmlSpecialChars` | contact-handler.php:31 | Decoding the five entities inverts the escaping for every input |
| `Php.StripSlashes` | contact-handler.php:30 | stripslashes never lengthens a string and leaves a string without backslashes unchanged |
| `Php.StripSlashesInvertsAddSlashes` | contact-handler.php:30 | stripslashes undoes addslashes for every string |
| `Php.StripSlashesDropsEscape` | contact-handler.php:30 | A backslash before any character is dropped and that character kept, with backslash-zero becoming NUL, so "C:\\Users" is stored as "C:Users" |
| `Text.Trim` | contact-handler.php:29 | The result is the slice of the input between all-whitespace borders, and is empty or starts and ends with a non-whitespace character |
| `Text.TrimUnique` | contact-handler.php:29 | Any whitespace around a core without whitespace ends trims to exactly that core |
| `Text.TrimIdempotent` | contact-handler.php:29 | Trimming twice gives the same as trimming once |
| `ContactHandler.SubjectLabelRecoversCode` | contact-handler.php:100-109 | The six codes are the map's keys; `other` maps to "General Inquiry" and `job` to "Job Opportunity"; every other subject maps to "New Message from Portfolio"; the label gives back the code for known codes and none for the default |
| `ContactHandler.EmailBodyRoundTrip` | contact-handler.php:112-121 | The body reads back in order as Name, Email, a Phone line iff the phone is PHP-truthy, the subject label, and the message followed by the footer, when the header fields are single lines |
| `ContactHandler.Headers` | contact-handler.php:124-126 | The headers start with the fixed From line and end with the mailer line and the PHP version. Between them lies exactly the Reply-To line naming the sender and the sender's email |
| `ContactHandler.HeadersRoundTrip` | contact-handler.php:124-126 | When name and email are single lines, the headers read back as the Reply-To value "name <email>" and the PHP version |
| `ContactHandler.CopyBody` | contact-handler.php:134-136 | The sender's copy is the message, unchanged, between the fixed introduction and the fixed signature |
| `ContactHandler.CopyBodyRoundTrip` | contact-handler.php:134-136 | Every message, whatever it contains, reads back from the sender's copy |
| `ContactHandler.OwnerMailReadsBack` | contact-handler.php:111-129 | The owner's mail of a successful request reads back as the sanitised fields with the mapped label |
| `ContactHandler.Outbox` | contact-handler.php:124-139 | The owner's mail is always sent first, with the mapped label and the email body. A second mail is sent iff the copy flag holds and the sender is not the owner; it goes to the sender with the copy subject and the copy body. Every mail carries the headers built from the sender's name and email |
| `ContactHandler.SmsText` | contact-handler.php:144 | The SMS starts with "New message from" and the name, ends with "...", and carries at most the first 50 bytes of the message, or all of it when it is shorter |
| `Php.Prefix` | contact-handler.php:144 | `substr($message, 0, 50)` is the first 50 bytes of the message, or all of it when it is shorter |
| `ContactHandler.SmsFor` | contact-handler.php:141-146 | Because the owner's number is a truthy constant, the SMS is always prepared, for the owner's number, with the name-and-excerpt text |
| `ContactHandler.EmailSent` | contact-handler.php:35-41 | send_email() reports success without mailing in debug mode, and otherwise reports what mail() returned |
| `ContactHandler.SmsSent` | contact-handler.php:43-73 | send_sms_twilio() reports success without sending in debug mode, and failure otherwise, because the Twilio request is disabled |
| `ContactHandler.AppendLog` | contact-handler.php:160-168 | A writable log becomes the earlier entries, or none for a missing or undecodable file, followed by exactly one new entry; a failed write leaves the file as it was |
| `ContactHandler.Deliver` | contact-handler.php:99-178 | After validation the reply is always `success=true` with the success message; `methods` echo the channel results (true in debug mode, `mail()`'s result for email and false for SMS otherwise), and the log entry records the same results |
| `ContactHandler.ValidRequestIsLogged` | contact-handler.php:149-178 | For any channel outcome, a valid request gets `success=true`; a writable log keeps its earlier entries and gains one last entry whose `email_sent` and `sms_sent` equal the reply's `methods` |
| `FormBackup.Every` | scripts/form-backup.js:67-68 | The left-to-right `every` holds iff each listed field is present and non-empty after trimming |
| `FormBackup.Validate` | scripts/form-backup.js:66-69 | Validation holds iff each of name, email, subject and message is present and has a non-whitespace character |
| `FormBackup.TrimEmptyIffBlank` | scripts/form-backup.js:68 | A string trims to nothing iff every character is JavaScript whitespace |
| `FormBackup.TemplateParamsOf` | scripts/form-backup.js:78-86 | The EmailJS payload is addressed to "Bright Safari". Its from_name, subject and message are the form's fields, and reply_to and from_email are both the email. The phone is "Not provided" when it is missing or empty |
| `FormBackup.OrDefault` | scripts/form-backup.js:82 | JavaScript's logical-or default on a form value gives the value when it is present and non-empty, and the default otherwise |
| `FormBackup.SendViaEmailJs` | scripts/form-backup.js:71-103 | Among outcomes that settle, EmailJS resolves true iff the library is or gets loaded and the send resolves, and a rejected load or send is caught and becomes false. Once loaded, the payload sent is the form's template parameters |
| `FormBackup.RelayBodyOf` | scripts/form-backup.js:114-122 | The relay body carries the form's name, email, subject and message as they are. Its phone defaults to "", its `_subject` is "New message from " and the name (or "undefined"), and its template is "table" |
| `FormBackup.SendViaRelay` | scripts/form-backup.js:105-138 | The relay counts as succeeded iff the reply is HTTP-ok JSON whose `success` is the string "true"; network errors, non-JSON, null and any other flag become false |
| `FormBackup.BackupRecord` | scripts/form-backup.js:145-149 | The backup record has the form's keys plus timestamp and status; status is always "pending"; a form field named timestamp overrides the generated one; every other form field is copied |
| `FormBackup.LocalBackup` | scripts/form-backup.js:140-162 | The backup succeeds iff storage is usable and the write succeeds; then exactly one record is appended after the unchanged earlier ones; otherwise the store is untouched |
| `FormBackup.AnySucceeded` | scripts/form-backup.js:50 | The aggregate holds iff some settled result is fulfilled with true |
| `FormBackup.AnySucceededIgnoresOrder` | scripts/form-backup.js:43-50 | The aggregate is the same for any order in which the channels settle |
| `FormBackup.Dispatch` | scripts/form-backup.js:43-57 | All three channels run; the form is reset with the success message iff at least one returned true; otherwise the error is "All sending methods failed. Please try emailing directly." |
| `FormBackup.HandleSubmit` | scripts/form-backup.js:26-64 | A form failing validation reaches no channel, leaves the store alone and shows "Please fill in all required fields.". A valid form is exactly the dispatch of the three channels on their environment, and resets iff one of them succeeded |
| `FormBackup.BackupAloneSucceeds` | scripts/form-backup.js:43-52 | With EmailJS and the relay both failing, a working local backup still makes the submission succeed |
| `FormStatus.PageIcon` | scripts/main.js:168-175 | The icon is one of check-circle, exclamation-circle and info-circle, with check-circle exactly for success, exclamation-circle exactly for error, and info-circle for every other kind |
| `FormStatus.BackupIcon` | scripts/form-backup.js:206 | form-backup.js shows check-circle exactly for success and exclamation-circle otherwise |
| `FormStatus.Show` | scripts/main.js:159-179 | A new status comes first and replaces the first existing one; every element after that one stays as it was. From at most one element, the area holds exactly the new one |
| `FormStatus.Expire` | scripts/main.js:182-190 | A timer removes its own element, if still attached, and keeps every other element; an area without that element is returned unchanged, and a single element is kept iff it is not the timer's |
| `FormStatus.ExpireAppend` | scripts/main.js:182-190 | Expiring a concatenation expires each part, so the kept elements stay in document order, which the next showFormStatus relies on when it removes the first status |
| `FormStatus.AtMostOneStatus` | scripts/main.js:159-190 | From at most one status element, any run of calls and timers leaves at most one, and right after a call exactly the one just shown |
| `Theme.InitTheme` | scripts/main.js:51-62 | When "dark" is stored, or nothing (or "") is stored and the system prefers dark, the page turns dark with the sun icon and nothing else changes. Otherwise the page is left exactly as it was |
| `Theme.ToggleTheme` | scripts/main.js:33-48 | Toggling flips the dark state and leaves the icon and the stored value ("light" when it was dark, "dark" otherwise) in agreement with the new state |
| `Theme.ToggleTwice` | scripts/main.js:33-44 | Toggling twice restores the dark state, and restores the whole state when icon and store agreed with it |
| `Theme.ReloadKeepsToggledTheme` | scripts/main.js:44-55 | After a toggle, reloading the page restores the same state whatever the system prefers |
| `MobileMenu.ToggleMenu` | scripts/main.js:65-68 | Toggling flips `active`, and the body overflow is "hidden" iff the menu is now active |
| `MobileMenu.OpensMenu` | scripts/main.js:66-73 | The open event is tracked iff the toggle opens the menu |
| `MobileMenu.CloseMenu` | scripts/main.js:77-80 | Closing always leaves the menu inactive with overflow "" |
| `MobileMenu.OverlayClick` | scripts/main.js:394-398 | A click on the overlay itself closes the menu and lets the page scroll again (overflow ""); a click inside it changes nothing |
| `MobileMenu.AnchorClick` | scripts/main.js:88-98 | The smooth-scroll handler of an in-page anchor closes the menu unless the anchor is "#" or its target is missing, which leave the menu unchanged |
| `MobileMenu.MobileLinkClick` | scripts/main.js:389-391 | A link inside the mobile menu also runs its own close listener after the smooth-scroll handler, so it always leaves the menu closed with overflow "", whatever its target |
| `MobileMenu.MenuRoundTrips` | scripts/main.js:65-80 | Toggling twice restores a consistent menu; closing is idempotent; both keep overflow in step with `active` |
| `Navbar.OnScroll` | scripts/main.js:230-251 | At most 100 the navbar is shown and not compact; above 100 it is compact and hidden iff the position is past the previous one; the stored position becomes the current one |
| `Navbar.ReplayDependsOnLastTwo` | scripts/main.js:228-251 | After any run of scroll events the navbar depends only on the last two positions, and the stored position is the last one |
| `SectionTracking.OnEntry` | scripts/main.js:336-337 | A `section_view` is sent iff the entry intersects and its id is not yet viewed; then the id joins the viewed set |
| `SectionTracking.EachSectionOnce` | scripts/main.js:332-347 | The viewed set only grows, exactly by the ids sent; no id is sent twice, and none that was already viewed |
| `Device.Classify` | scripts/main.js:516-520 | A width is mobile below 768, tablet from 768 to below 992, and desktop from 992 |
| `Device.ClassifyMonotone` | scripts/main.js:516-520 | A wider window never gets a smaller device type |
| `PageForm.HandleFormSubmit` | scripts/main.js:128-133 | The page handler submits iff name, email and message are present and non-empty; a rejection shows an `error` status with the exclamation icon and "Please fill in all required fields." |
| `PageForm.PageCheckIsWeaker` | scripts/main.js:129 | Every form the dispatcher's `validate` accepts, the page handler accepts too |
| `PageForm.PageCheckIsStrictlyWeaker` | scripts/main.js:129 | A form without a subject passes the page handler but not the dispatcher's `validate` |

## Left out

- scripts/ai-effects.js: particles, parallax, typing and other animation effects, with random sizes, floating-point geometry and timers; nothing to state about them.
- Network and foreign calls: `mail()`, the Twilio request (commented out in the handler), loading the EmailJS script, `emailjs.send`, and `fetch` to FormSubmit. Each is an outcome parameter (`Env.mailAccepted`, `EmailJsEnv`, `RelayReply`).
- `filter_var(..., FILTER_VALIDATE_EMAIL)`: it is the `isValidEmail` parameter, not a re-implementation of PHP's validator.
- File and localStorage I/O and JSON (de)serialisation: the log is `LogFile` and the backup store is `Store`. Invalid JSON is the `Unreadable`/`Unusable` case. The reply is a `Response` value, not encoded JSON text.
- Theme: the `portfolio-theme` localStorage item is assumed always readable and writable; a getItem or setItem that throws because storage is disabled is not modelled. The served page is assumed to start light with the moon icon, and one icon stands for all `.theme-toggle i` elements.
- ContactHandler.AppendLog: a log file that decodes to a truthy non-list value makes PHP raise an uncaught Error; this case is not modelled. An object decoded from the file is treated like a list.
- ContactHandler.AppendLog: requests are modelled one at a time. The handler reads, extends and rewrites contact_messages.json without a lock, so two concurrent requests can lose an entry, and a read of a half-written file fails to decode and resets the log to the one new entry; neither interleaving is modelled.
- FormBackup.LocalBackup: one tab at a time. Two tabs that read and rewrite the `contact_messages` item concurrently can lose a record; this is not modelled.
- FormBackup.SendViaEmailJs: a load, send or fetch that never settles is not modelled. loadEmailJS calls `emailjs.init` inside the script's onload handler before resolving, so a script that loads without defining `emailjs` leaves the promise pending; then `Promise.allSettled` never resolves and handleSubmit shows neither success nor error. The model treats every channel as settling.
- A request body that is not a JSON object is modelled as the empty object. PHP's lookups on such a body yield null, so the behaviour is the same.
- JSON numbers with a fraction, and integers outside the 64-bit range that json_decode turns into floats, are not modelled: `Json.Int` is unbounded and always converts to its exact digits. A list or object keeps only its element count.
- Php.HtmlSpecialChars: ENT_QUOTES is a parameter because the default changed in PHP 8.1; the ENT_SUBSTITUTE handling of invalid UTF-8 and the charset argument are not modelled.
- `Promise.allSettled` concurrency: the channels are independent values, and `AnySucceededIgnoresOrder` covers any settling order. The `setTimeout` delays are left out; a status timer is an `Expired` event.
- Analytics: `trackEvent`/`gtag` calls and their labels (theme direction, resize label, time on page, skill views) are left out. Only the decisions they hang on are kept.
- DOM plumbing: ripple geometry, `scrollTo`/`pushState`, skill-bar animation, the loading button, the WhatsApp badge, click-to-copy email, and the `date()`/`toISOString()` formatting (timestamps are parameters).
- FormBackup.BackupRecord: it is a map, so the key order of the JSON record is not kept.
- FormStatus.PageIcon: kinds that name inherited object properties (such as "toString") are not modelled. The scripts only pass success and error.
- Navbar.OnScroll: scroll positions are integers; fractional `pageYOffset` values and the fallback to `scrollTop` when the offset is 0 are not modelled.

=== FILE: contact_handler.dfy ===
/** The server endpoint contact-handler.php: it validates a JSON contact submission, mails it
    to the site owner (and optionally a copy to the sender), sends an SMS notification, appends
    the submission to a JSON log file and answers with a JSON status object. */
module ContactHandler {
  import opened Wrappers
  import opened Json
  import Php
  import Text

  const OwnerEmail: string := "safaribright93@gmail.com"
  const OwnerPhone: string := "+255748042678"
  const RequiredFields: seq<string> := ["name", "email", "subject", "message"]

  const MsgInvalidMethod: string := "Invalid request method."
  const MsgRequired: string := "Please fill in all required fields."
  const MsgInvalidEmail: string := "Please enter a valid email address."
  const MsgSuccess: string := "Message sent successfully! I'll get back to you soon."

  const DefaultLabel: string := "New Message from Portfolio"
  const SubjectLabels: map<string, string> := map[
    "project" := "Project Collaboration Inquiry",
    "job" := "Job Opportunity",
    "freelance" := "Freelance Work Request",
    "partnership" := "Business Partnership Inquiry",
    "question" := "Technical Question",
    "other" := "General Inquiry"
  ]

  const BodyIntro: string := "You have received a new message from your portfolio website:\n\n"
  const BodyFooter: string := "---\nThis message was sent from your portfolio at brightsafari.space\n"
  const CopySubject: string := "Copy of your message to Bright Safari"
  const SmsExcerptLength: nat := 50

  /** The HTTP method and the decoded JSON body. A body that is not a JSON object yields null
      for every string key, so it is modelled as the empty object. */
  datatype Request = Request(httpMethod: string, body: map<string, Value>)

  /** `debug` is the handler's `$debug` flag (true as shipped): mail and SMS are then only
      written to the error log and reported as sent. `encodeQuotes` is htmlspecialchars'
      ENT_QUOTES flag, on by default from PHP 8.1. `phpVersion` is what phpversion() returns.
      The model follows PHP 8.0 or later throughout: trim() of an array raises a TypeError, and
      a number is compared with a non-numeric string as text. */
  datatype Config = Config(debug: bool, encodeQuotes: bool, phpVersion: string)

  /** One record of contact_messages.json. */
  datatype LogEntry = LogEntry(
    timestamp: string, name: string, email: string, phone: string,
    subject: string, message: string, emailSent: bool, smsSent: bool)

  /** The log file before or after a request: absent, present but not decoding to a non-empty
      list (invalid JSON, an unreadable file, `[]`, `null`, `false`, ...), or a list of entries. */
  datatype LogFile = Missing | Unreadable | Entries(entries: seq<LogEntry>)

  /** Everything the handler learns from outside: PHP's email validator, whether mail() accepts
      the owner's message, the current date() string, the log file and whether writing it works. */
  datatype Env = Env(
    isValidEmail: string -> bool, mailAccepted: bool, now: string,
    logFile: LogFile, logWritable: bool)

  datatype Mail = Mail(to: string, subject: string, body: string, headers: string)
  datatype Sms = Sms(to: string, text: string)
  datatype Methods = Methods(email: bool, sms: bool)

  /** The JSON object echoed back, or an uncaught TypeError that ends the script without one. */
  datatype Response = Reply(success: bool, message: string, methods: Option<Methods>) | Fatal

  /** What one request produces: the response, the messages handed to send_email() in order,
      the SMS handed to send_sms_twilio(), and the log file afterwards. */
  datatype Run = Run(response: Response, mails: seq<Mail>, sms: Option<Sms>, logFile: LogFile)

  /** The sanitised submission. */
  datatype Submission = Submission(
    name: string, email: string, phone: string, subject: string, message: string, copyMe: bool)

  datatype Failure = Invalid(message: string) | TypeError

  function Lookup(body: map<string, Value>, key: string): Option<Value> {
    if key in body then Some(body[key]) else None
  }

  // ---------------------------------------------------------------------------
  // Validation and sanitisation

  /** Some required field is PHP-empty. */
  predicate MissingRequired(body: map<string, Value>) {
    exists i :: 0 <= i < |RequiredFields| && Php.Empty(Lookup(body, RequiredFields[i]))
  }

  /** The foreach over the required fields: the index of the first empty one, if any. */
  function FirstEmpty(fields: seq<string>, body: map<string, Value>): (r: Option<nat>)
    ensures r.None? <==> forall i :: 0 <= i < |fields| ==> !Php.Empty(Lookup(body, fields[i]))
    ensures r.Some? ==> r.value < |fields| && Php.Empty(Lookup(body, fields[r.value]))
    ensures r.Some? ==> forall j :: 0 <= j < r.value ==> !Php.Empty(Lookup(body, fields[j]))
    decreases |fields|
  {
    if |fields| == 0 then None
    else if Php.Empty(Lookup(body, fields[0])) then Some(0)
    else
      match FirstEmpty(fields[1..], body)
      case None => None
      case Some(k) => Some(k + 1)
  }

  /** validate_input() applied to a decoded value; `None` when PHP would raise a TypeError.
      The text is markup-free and decodes to the value's string, trimmed and unslashed. */
  function SanitizeField(v: Value, quotes: bool): (r: Option<string>)
    ensures r.None? <==> v.Array?
    ensures r.Some? ==> Php.NoMarkup(r.value) && (quotes ==> '\'' !in r.value)
    ensures r.Some? ==> Php.DecodeSpecialChars(r.value) == Php.StripSlashes(Php.Trim(Php.ToStringArg(v).value))
  {
    var s :- Php.ToStringArg(v);
    Some(Php.ValidateInput(s, quotes))
  }

  /** The copy flag: `copyMe` is set, not null, and loosely equal to the string "true". */
  function CopyRequested(body: map<string, Value>): (r: bool)
    ensures r <==> "copyMe" in body && (body["copyMe"] == Str("true") || body["copyMe"] == Bool(true))
  {
    Php.LooseEqualsTrue(if "copyMe" in body then body["copyMe"] else Null);
    Php.IsSet(Lookup(body, "copyMe")) && Php.LooseEqualsWord(body["copyMe"], "true")
  }

  /** Some field that reaches validate_input() holds a list or an object. */
  predicate ArrayField(body: map<string, Value>) {
    IsArray(Lookup(body, "name")) || IsArray(Lookup(body, "email")) || IsArray(Lookup(body, "phone"))
    || IsArray(Lookup(body, "subject")) || IsArray(Lookup(body, "message"))
  }

  predicate IsArray(v: Option<Value>) {
    v.Some? && v.value.Array?
  }

  /** The sanitised email of the body passes PHP's email validator. */
  predicate EmailAccepted(body: map<string, Value>, quotes: bool, isValidEmail: string -> bool) {
    "email" in body && SanitizeField(body["email"], quotes).Some?
    && isValidEmail(SanitizeField(body["email"], quotes).value)
  }

  /** `sub` holds what validate_input() makes of each field of `body`, an empty phone when
      none is set, and the copy flag of the body. */
  predicate FieldsOf(sub: Submission, body: map<string, Value>, quotes: bool) {
    && "name" in body && "email" in body && "subject" in body && "message" in body
    && SanitizeField(body["name"], quotes) == Some(sub.name)
    && SanitizeField(body["email"], quotes) == Some(sub.email)
    && (if Php.IsSet(Lookup(body, "phone")) then SanitizeField(body["phone"], quotes) == Some(sub.phone)
        else sub.phone == "")
    && SanitizeField(body["subject"], quotes) == Some(sub.subject)
    && SanitizeField(body["message"], quotes) == Some(sub.message)
    && sub.copyMe == CopyRequested(body)
  }

  /** Every text field of a submission is free of markup characters. */
  predicate Clean(sub: Submission) {
    Php.NoMarkup(sub.name) && Php.NoMarkup(sub.email) && Php.NoMarkup(sub.phone)
    && Php.NoMarkup(sub.subject) && Php.NoMarkup(sub.message)
  }

  /** The loop finds an empty field exactly when some required field is empty; when it finds
      none, all four keys are present. */
  lemma FirstEmptyFindsMissing(body: map<string, Value>)
    ensures FirstEmpty(RequiredFields, body).Some? <==> MissingRequired(body)
    ensures !MissingRequired(body) ==> "name" in body && "email" in body && "subject" in body && "message" in body
  {
    if !MissingRequired(body) {
      assert !Php.Empty(Lookup(body, RequiredFields[0]));
      assert !Php.Empty(Lookup(body, RequiredFields[1]));
      assert !Php.Empty(Lookup(body, RequiredFields[2]));
      assert !Php.Empty(Lookup(body, RequiredFields[3]));
    }
  }

  /** The sanitising block of the handler, once every required field is known to be
      non-empty: validate_input() on each field, the copy flag and the email check. */
  function SanitizeFields(body: map<string, Value>, quotes: bool, isValidEmail: string -> bool)
    : (r: Result<Submission, Failure>)
    requires "name" in body && "email" in body && "subject" in body && "message" in body
    ensures r == Failure(TypeError) <==> ArrayField(body)
    ensures r == Failure(Invalid(MsgInvalidEmail)) <==> !ArrayField(body) && !EmailAccepted(body, quotes, isValidEmail)
    ensures r.Success? <==> !ArrayField(body) && EmailAccepted(body, quotes, isValidEmail)
    ensures r.Success? ==> Clean(r.value) && isValidEmail(r.value.email) && FieldsOf(r.value, body, quotes)
  {
    var name := SanitizeField(body["name"], quotes);
    var email := SanitizeField(body["email"], quotes);
    var phone := if Php.IsSet(Lookup(body, "phone")) then SanitizeField(body["phone"], quotes) else Some("");
    var subject := SanitizeField(body["subject"], quotes);
    var message := SanitizeField(body["message"], quotes);
    assert name.None? <==> IsArray(Lookup(body, "name"));
    assert email.None? <==> IsArray(Lookup(body, "email"));
    assert phone.None? <==> IsArray(Lookup(body, "phone"));
    assert subject.None? <==> IsArray(Lookup(body, "subject"));
    assert message.None? <==> IsArray(Lookup(body, "message"));
    if name.None? || email.None? || phone.None? || subject.None? || message.None? then
      Failure(TypeError)
    else if !isValidEmail(email.value) then
      Failure(Invalid(MsgInvalidEmail))
    else
      Success(Submission(name.value, email.value, phone.value, subject.value, message.value, CopyRequested(body)))
  }

  /** The validation part of the POST branch: the required-field loop, then sanitising and
      the filter_var email check. */
  function Sanitize(body: map<string, Value>, quotes: bool, isValidEmail: string -> bool)
    : (r: Result<Submission, Failure>)
    ensures r == Failure(Invalid(MsgRequired)) <==> MissingRequired(body)
    ensures r == Failure(TypeError) <==> !MissingRequired(body) && ArrayField(body)
    ensures r == Failure(Invalid(MsgInvalidEmail))
        <==> !MissingRequired(body) && !ArrayField(body) && !EmailAccepted(body, quotes, isValidEmail)
    ensures r.Success? <==> !MissingRequired(body) && !ArrayField(body) && EmailAccepted(body, quotes, isValidEmail)
    ensures r.Success? ==> Clean(r.value) && isValidEmail(r.value.email) && FieldsOf(r.value, body, quotes)
  {
    FirstEmptyFindsMissing(body);
    if FirstEmpty(RequiredFields, body).Some? then Failure(Invalid(MsgRequired))
    else SanitizeFields(body, quotes, isValidEmail)
  }

  // ---------------------------------------------------------------------------
  // Subject title

  /** `$email_subject`: the `$subject_map` title of a known subject code, or the default title. */
  function SubjectLabel(code: string): string {
    if code in SubjectLabels then SubjectLabels[code] else DefaultLabel
  }

  /** The code a title was made from; `None` for the default title. */
  function CodeOfLabel(title: string): Option<string> {
    if title == "Project Collaboration Inquiry" then Some("project")
    else if title == "Job Opportunity" then Some("job")
    else if title == "Freelance Work Request" then Some("freelance")
    else if title == "Business Partnership Inquiry" then Some("partnership")
    else if title == "Technical Question" then Some("question")
    else if title == "General Inquiry" then Some("other")
    else None
  }

  /** The six codes get their own labels, every other subject gets the default title, and the
      title tells the code apart: it recovers a known code and never names one for the default. */
  lemma SubjectLabelRecoversCode(code: string)
    ensures code in SubjectLabels <==> code in {"project", "job", "freelance", "partnership", "question", "other"}
    ensures code == "other" ==> SubjectLabel(code) == "General Inquiry"
    ensures code == "job" ==> SubjectLabel(code) == "Job Opportunity"
    ensures code !in SubjectLabels ==> SubjectLabel(code) == DefaultLabel
    ensures CodeOfLabel(SubjectLabel(code)) == if code in SubjectLabels then Some(code) else None
  {
  }

  // ---------------------------------------------------------------------------
  // The owner's email

  /** One "Key: value" line of the email body. */
  function Line(key: string, value: string): string {
    key + value + "\n"
  }

  /** `$email_body`, the owner's message. The Phone line is written only when the phone is PHP-truthy. */
  function EmailBody(name: string, email: string, phone: string, title: string, message: string): string {
    BodyIntro
    + (Line("Name: ", name)
    + (Line("Email: ", email)
    + ((if Php.Truthy(phone) then Line("Phone: ", phone) else "")
    + (Line("Subject: ", title)
    + MessageSection(message)))))
  }

  /** The message and the footer that close the body. */
  function MessageSection(message: string): string {
    "\nMessage:\n" + message + "\n\n" + BodyFooter
  }

  /** What a reader of the email sees: the header fields, the phone if there is a Phone line,
      the subject label and the message text. */
  datatype BodyFields = BodyFields(name: string, email: string, phone: Option<string>, title: string, message: string)

  /** Reads an email body back into its fields. */
  function ParseEmailBody(body: string): Option<BodyFields> {
    var r0 :- Text.StripPrefix(body, BodyIntro);
    var nameLine :- ExpectLine(r0, "Name: ");
    var emailLine :- ExpectLine(nameLine.1, "Email: ");
    var tail :- ParseBodyTail(emailLine.1);
    Some(BodyFields(nameLine.0, emailLine.0, tail.0, tail.1, tail.2))
  }

  /** The part after the Email line: the optional phone, the subject label and the message. */
  function ParseBodyTail(s: string): Option<(Option<string>, string, string)> {
    var phoneLine :- ParsePhoneLine(s);
    var titleLine :- ExpectLine(phoneLine.1, "Subject: ");
    var message :- ParseMessageSection(titleLine.1);
    Some((phoneLine.0, titleLine.0, message))
  }

  /** A line that must start with `key`: its value and the text after it. */
  function ExpectLine(s: string, key: string): Option<(string, string)> {
    var r :- Text.StripPrefix(s, key);
    Text.SplitLine(r)
  }

  /** An optional "Phone: ..." line: the phone and the rest, or no phone and the text as is. */
  function ParsePhoneLine(s: string): Option<(Option<string>, string)> {
    if Text.StartsWith(s, "Phone: ") then
      var line :- ExpectLine(s, "Phone: ");
      Some((Some(line.0), line.1))
    else Some((None, s))
  }

  function ParseMessageSection(s: string): Option<string> {
    var r :- Text.StripPrefix(s, "\nMessage:\n");
    Text.StripSuffix(r, "\n\n" + BodyFooter)
  }

  lemma ExpectLineOf(key: string, value: string, rest: string)
    requires '\n' !in value
    ensures ExpectLine(Line(key, value) + rest, key) == Some((value, rest))
  {
    assert Line(key, value) + rest == key + (value + "\n" + rest);
    Text.StripPrefixOf(key, value + "\n" + rest);
    Text.SplitLineOf(value, rest);
  }

  lemma ParseMessageSectionOf(message: string)
    ensures ParseMessageSection(MessageSection(message)) == Some(message)
  {
    assert MessageSection(message) == "\nMessage:\n" + (message + ("\n\n" + BodyFooter));
    Text.StripPrefixOf("\nMessage:\n", message + ("\n\n" + BodyFooter));
    Text.StripSuffixOf(message, "\n\n" + BodyFooter);
  }

  lemma ParsePhoneLineOf(phone: string, rest: string)
    requires '\n' !in phone
    requires Text.StartsWith(rest, "Subject: ")
    ensures ParsePhoneLine((if Php.Truthy(phone) then Line("Phone: ", phone) else "") + rest)
         == Some((if Php.Truthy(phone) then Some(phone) else None, rest))
  {
    if Php.Truthy(phone) {
      var s := Line("Phone: ", phone) + rest;
      assert s[..7] == "Phone: ";
      ExpectLineOf("Phone: ", phone, rest);
    } else {
      assert "" + rest == rest;
      assert rest[0] == 'S';
    }
  }

  /** Reading the body back gives every field the handler wrote, and a phone exactly when the
      phone is PHP-truthy. Header fields must be single lines for the reading to be unambiguous;
      the message may contain anything. */
  lemma EmailBodyRoundTrip(name: string, email: string, phone: string, title: string, message: string)
    requires '\n' !in name && '\n' !in email && '\n' !in phone && '\n' !in title
    ensures ParseEmailBody(EmailBody(name, email, phone, title, message))
         == Some(BodyFields(name, email, if Php.Truthy(phone) then Some(phone) else None, title, message))
  {
    var fromSubject := Line("Subject: ", title) + MessageSection(message);
    var fromPhone := (if Php.Truthy(phone) then Line("Phone: ", phone) else "") + fromSubject;
    var fromEmail := Line("Email: ", email) + fromPhone;
    var fromName := Line("Name: ", name) + fromEmail;
    assert EmailBody(name, email, phone, title, message) == BodyIntro + fromName;
    Text.StripPrefixOf(BodyIntro, fromName);
    ExpectLineOf("Name: ", name, fromEmail);
    ExpectLineOf("Email: ", email, fromPhone);
    BodyTailOf(phone, title, message);
  }

  lemma BodyTailOf(phone: string, title: string, message: string)
    requires '\n' !in phone && '\n' !in title
    ensures ParseBodyTail((if Php.Truthy(phone) then Line("Phone: ", phone) else "")
                          + (Line("Subject: ", title) + MessageSection(message)))
         == Some((if Php.Truthy(phone) then Some(phone) else None, title, message))
  {
    var fromSubject := Line("Subject: ", title) + MessageSection(message);
    assert fromSubject[..9] == "Subject: ";
    ParsePhoneLineOf(phone, fromSubject);
    ExpectLineOf("Subject: ", title, MessageSection(message));
    ParseMessageSectionOf(message);
  }

  // ---------------------------------------------------------------------------
  // Headers, the sender's copy and the SMS

  const FromHeader: string := "From: Portfolio Contact <noreply@brightsafari.space>\r\n"
  const MailerPrefix: string := "X-Mailer: PHP/"

  /** The `$headers` string: a fixed From line, a Reply-To line naming the sender, and the
      mailer line carrying phpversion(). The same headers go on the owner's mail and on the
      sender's copy. */
  function Headers(name: string, email: string, phpVersion: string): (r: string)
    ensures Text.StartsWith(r, FromHeader)
    ensures Text.EndsWith(r, MailerPrefix + phpVersion)
    ensures |FromHeader| <= |r| - |MailerPrefix + phpVersion|
    ensures r[|FromHeader|..|r| - |MailerPrefix + phpVersion|] == "Reply-To: " + name + " <" + email + ">\r\n"
  {
    var replyTo := "Reply-To: " + name + " <" + email + ">\r\n";
    var r := FromHeader + replyTo + (MailerPrefix + phpVersion);
    assert r[..|FromHeader|] == FromHeader;
    assert r[|r| - |MailerPrefix + phpVersion|..] == MailerPrefix + phpVersion;
    assert r[|FromHeader|..|r| - |MailerPrefix + phpVersion|] == replyTo;
    r
  }

  /** Reads a header block back into the Reply-To value and the PHP version. */
  function ParseHeaders(h: string): Option<(string, string)> {
    var r0 :- Text.StripPrefix(h, FromHeader);
    var replyTo :- ExpectLine(r0, "Reply-To: ");
    var value :- Text.StripSuffix(replyTo.0, "\r");
    var version :- Text.StripPrefix(replyTo.1, MailerPrefix);
    Some((value, version))
  }

  /** The headers read back as the Reply-To value "name <email>" and the PHP version, when
      name and email are single lines. validate_input() keeps line breaks inside a value, so
      a name spanning lines would add header lines of its own. */
  lemma HeadersRoundTrip(name: string, email: string, phpVersion: string)
    requires '\n' !in name && '\n' !in email
    ensures ParseHeaders(Headers(name, email, phpVersion)) == Some((name + " <" + email + ">", phpVersion))
  {
    var value := name + " <" + email + ">";
    var rest := MailerPrefix + phpVersion;
    var afterFrom := Line("Reply-To: ", value + "\r") + rest;
    assert Headers(name, email, phpVersion) == FromHeader + afterFrom;
    Text.StripPrefixOf(FromHeader, afterFrom);
    assert '\n' !in value + "\r" by {
      assert forall i :: 0 <= i < |value + "\r"| ==> (value + "\r")[i] != '\n';
    }
    ExpectLineOf("Reply-To: ", value + "\r", rest);
    Text.StripSuffixOf(value, "\r");
    Text.StripPrefixOf(MailerPrefix, phpVersion);
  }

  /** The condition of the copy-to-sender `if`: a copy is sent when it was asked for and the sender is not the owner. PHP's `!=`
      compares the two as text here, because the owner address is not a numeric string. */
  predicate WantsCopy(sub: Submission) {
    sub.copyMe && sub.email != OwnerEmail
  }

  const CopyIntro: string := "This is a copy of the message you sent to Bright Safari:\n\n"
  const CopyFooter: string :=
    "\n\n---\nThank you for your message! I'll get back to you soon.\nBright Safari\nsafaribright93@gmail.com\n"

  /** The `$copy_body` of the sender's copy: the message between a fixed introduction and a
      fixed signature. */
  function CopyBody(message: string): (r: string)
    ensures Text.StartsWith(r, CopyIntro) && Text.EndsWith(r, CopyFooter)
    ensures |r| == |CopyIntro| + |message| + |CopyFooter|
    ensures r[|CopyIntro|..|r| - |CopyFooter|] == message
  {
    var r := CopyIntro + message + CopyFooter;
    assert r[..|CopyIntro|] == CopyIntro;
    assert r[|r| - |CopyFooter|..] == CopyFooter;
    assert r[|CopyIntro|..|r| - |CopyFooter|] == message;
    r
  }

  /** Reads a copy body back into the message. */
  function ParseCopyBody(body: string): Option<string> {
    var r :- Text.StripPrefix(body, CopyIntro);
    Text.StripSuffix(r, CopyFooter)
  }

  /** Every message, whatever it contains, reads back from the sender's copy. */
  lemma CopyBodyRoundTrip(message: string)
    ensures ParseCopyBody(CopyBody(message)) == Some(message)
  {
    assert CopyBody(message) == CopyIntro + (message + CopyFooter);
    Text.StripPrefixOf(CopyIntro, message + CopyFooter);
    Text.StripSuffixOf(message, CopyFooter);
  }

  /** `$sms_message`: the sender's name and the first 50 bytes of the message, then an ellipsis. */
  function SmsText(name: string, message: string): (r: string)
    ensures |r| == 22 + |name| + (if |message| < SmsExcerptLength then |message| else SmsExcerptLength)
    ensures Text.StartsWith(r, "New message from " + name + ": ")
    ensures Text.EndsWith(r, "...")
    ensures var excerpt := r[19 + |name|..|r| - 3];
            |excerpt| <= SmsExcerptLength && excerpt == message[..|excerpt|]
            && (|message| <= SmsExcerptLength ==> excerpt == message)
  {
    var excerpt := Php.Prefix(message, SmsExcerptLength);
    var r := "New message from " + name + ": " + excerpt + "...";
    assert r[..19 + |name|] == "New message from " + name + ": ";
    assert r[19 + |name|..|r| - 3] == excerpt;
    r
  }

  /** send_email(): in debug mode it only logs and reports success; otherwise it reports what
      mail() returned. */
  function EmailSent(debug: bool, mailAccepted: bool): (sent: bool)
    ensures debug ==> sent
    ensures !debug ==> sent == mailAccepted
  {
    debug || mailAccepted
  }

  /** send_sms_twilio(): in debug mode it only logs and reports success; the Twilio call is
      commented out, so otherwise it reports failure. */
  function SmsSent(debug: bool): (sent: bool)
    ensures debug ==> sent
    ensures !debug ==> !sent
  {
    debug
  }

  // ---------------------------------------------------------------------------
  // The log file

  /** `$existing_logs`: the entries already logged; a missing or undecodable file counts as empty. */
  function PriorEntries(f: LogFile): seq<LogEntry> {
    match f
    case Missing => []
    case Unreadable => []
    case Entries(es) => es
  }

  /** The write to contact_messages.json: the file after appending `entry`; a failed write leaves it as it was. */
  function AppendLog(f: LogFile, entry: LogEntry, writable: bool): (r: LogFile)
    ensures writable ==> r.Entries? && |r.entries| == |PriorEntries(f)| + 1
    ensures writable ==> r.entries[..|PriorEntries(f)|] == PriorEntries(f) && r.entries[|PriorEntries(f)|] == entry
    ensures !writable ==> r == f
  {
    if writable then Entries(PriorEntries(f) + [entry]) else f
  }

  // ---------------------------------------------------------------------------
  // The request

  /** The send_email() calls of the handler: the messages handed to send_email(), in order: always the owner's, then
      the sender's copy when one is wanted. Both carry the same headers. */
  function Outbox(sub: Submission, phpVersion: string): (mails: seq<Mail>)
    ensures 1 <= |mails| <= 2
    ensures mails[0].to == OwnerEmail && mails[0].subject == SubjectLabel(sub.subject)
    ensures mails[0].body == EmailBody(sub.name, sub.email, sub.phone, SubjectLabel(sub.subject), sub.message)
    ensures |mails| == 2 <==> WantsCopy(sub)
    ensures |mails| == 2 ==> mails[1].to == sub.email && mails[1].subject == CopySubject
    ensures |mails| == 2 ==> mails[1].body == CopyBody(sub.message)
    ensures forall k :: 0 <= k < |mails| ==> mails[k].headers == Headers(sub.name, sub.email, phpVersion)
  {
    var title := SubjectLabel(sub.subject);
    var headers := Headers(sub.name, sub.email, phpVersion);
    var ownerMail := Mail(OwnerEmail, title, EmailBody(sub.name, sub.email, sub.phone, title, sub.message), headers);
    if WantsCopy(sub) then [ownerMail, Mail(sub.email, CopySubject, CopyBody(sub.message), headers)]
    else [ownerMail]
  }

  /** The SMS block: `$phone || $your_phone` holds because the owner's number is a constant
      truthy string, so the notification is always prepared for the owner's phone. */
  function SmsFor(sub: Submission): (sms: Option<Sms>)
    ensures sms.Some? && sms.value.to == OwnerPhone
    ensures sms.Some? && sms.value.text == SmsText(sub.name, sub.message)
  {
    if Php.Truthy(sub.phone) || Php.Truthy(OwnerPhone) then Some(Sms(OwnerPhone, SmsText(sub.name, sub.message))) else None
  }

  /** The rest of the POST branch: everything after validation succeeded. The reply reports success whatever
      the channels did, echoes their results, and the log gains one entry recording them. */
  function Deliver(sub: Submission, cfg: Config, env: Env): (run: Run)
    ensures run.response.Reply? && run.response.success && run.response.message == MsgSuccess
    ensures run.response.methods == Some(Methods(EmailSent(cfg.debug, env.mailAccepted), SmsSent(cfg.debug)))
    ensures run.mails == Outbox(sub, cfg.phpVersion) && run.sms == SmsFor(sub)
    ensures run.logFile == AppendLog(env.logFile, LogEntry(env.now, sub.name, sub.email, sub.phone, sub.subject, sub.message,
                                                  run.response.methods.value.email, run.response.methods.value.sms), env.logWritable)
  {
    var emailSent := EmailSent(cfg.debug, env.mailAccepted);
    var sms := SmsFor(sub);
    var smsSent := if sms.Some? then SmsSent(cfg.debug) else false;
    var entry := LogEntry(env.now, sub.name, sub.email, sub.phone, sub.subject, sub.message, emailSent, smsSent);
    Run(Reply(true, MsgSuccess, Some(Methods(emailSent, smsSent))), Outbox(sub, cfg.phpVersion), sms, AppendLog(env.logFile, entry, env.logWritable))
  }

  /** The whole script for one request. */
  function Handle(req: Request, cfg: Config, env: Env): (run: Run)
    ensures req.httpMethod != "POST" ==> run == Run(Reply(false, MsgInvalidMethod, None), [], None, env.logFile)
    ensures run.response == Reply(false, MsgRequired, None) <==> req.httpMethod == "POST" && MissingRequired(req.body)
    ensures run.response == Fatal <==> req.httpMethod == "POST" && !MissingRequired(req.body) && ArrayField(req.body)
    ensures run.response == Reply(false, MsgInvalidEmail, None)
        <==> && req.httpMethod == "POST" && !MissingRequired(req.body) && !ArrayField(req.body)
             && !EmailAccepted(req.body, cfg.encodeQuotes, env.isValidEmail)
    ensures run.response.Reply? && run.response.success
        <==> && req.httpMethod == "POST" && !MissingRequired(req.body) && !ArrayField(req.body)
             && EmailAccepted(req.body, cfg.encodeQuotes, env.isValidEmail)
    ensures run.response.Reply? && run.response.success
        ==> run == Deliver(Sanitize(req.body, cfg.encodeQuotes, env.isValidEmail).value, cfg, env)
    ensures !(run.response.Reply? && run.response.success) ==> run.mails == [] && run.sms.None? && run.logFile == env.logFile
  {
    if req.httpMethod != "POST" then
      Run(Reply(false, MsgInvalidMethod, None), [], None, env.logFile)
    else
      match Sanitize(req.body, cfg.encodeQuotes, env.isValidEmail)
      case Failure(TypeError) => Run(Fatal, [], None, env.logFile)
      case Failure(Invalid(m)) => Run(Reply(false, m, None), [], None, env.logFile)
      case Success(sub) => Deliver(sub, cfg, env)
  }

  /** Once validation passes the reply is a success whatever mail() returned, its `methods`
      echo the channel results, and a writable log gains exactly one entry carrying the same
      results after the untouched earlier entries. */
  lemma ValidRequestIsLogged(req: Request, cfg: Config, env: Env)
    requires req.httpMethod == "POST"
    ensures var run := Handle(req, cfg, env);
      Sanitize(req.body, cfg.encodeQuotes, env.isValidEmail).Success? ==>
      && run.response.Reply? && run.response.success && run.response.message == MsgSuccess
      && run.response.methods == Some(Methods(cfg.debug || env.mailAccepted, cfg.debug))
      && (env.logWritable ==>
            && run.logFile.Entries?
            && |run.logFile.entries| == |PriorEntries(env.logFile)| + 1
            && run.logFile.entries[..|PriorEntries(env.logFile)|] == PriorEntries(env.logFile)
            && Last(run.logFile.entries).emailSent == run.response.methods.value.email
            && Last(run.logFile.entries).smsSent == run.response.methods.value.sms)
  {
  }

  function Last<T>(s: seq<T>): T
    requires |s| > 0
  {
    s[|s| - 1]
  }

  /** The owner's mail of a successful request reads back as the sanitised name, email, the
      phone exactly when it is truthy, the label of the subject code, and the message. */
  lemma OwnerMailReadsBack(req: Request, cfg: Config, env: Env)
    requires req.httpMethod == "POST"
    ensures var r := Sanitize(req.body, cfg.encodeQuotes, env.isValidEmail);
      r.Success? && '\n' !in r.value.name && '\n' !in r.value.email && '\n' !in r.value.phone ==>
      ParseEmailBody(Handle(req, cfg, env).mails[0].body)
        == Some(BodyFields(r.value.name, r.value.email, if Php.Truthy(r.value.phone) then Some(r.value.phone) else None,
                           SubjectLabel(r.value.subject), r.value.message))
  {
    var r := Sanitize(req.body, cfg.encodeQuotes, env.isValidEmail);
    if !(r.Success? && '\n' !in r.value.name && '\n' !in r.value.email && '\n' !in r.value.phone) {
      return;
    }
    var sub := Sanitize(req.body, cfg.encodeQuotes, env.isValidEmail).value;
    var title := SubjectLabel(sub.subject);
    assert Handle(req, cfg, env) == Deliver(sub, cfg, env);
    assert Handle(req, cfg, env).mails[0].body == EmailBody(sub.name, sub.email, sub.phone, title, sub.message);
    LabelIsOneLine(sub.subject);
    EmailBodyRoundTrip(sub.name, sub.email, sub.phone, title, sub.message);
  }

  lemma LabelIsOneLine(code: string)
    ensures '\n' !in SubjectLabel(code)
  {
    var t := SubjectLabel(code);
    assert t in SubjectLabels.Values + {DefaultLabel};
    forall v | v in SubjectLabels.Values + {DefaultLabel} ensures '\n' !in v {
    }
  }
}

=== FILE: form_backup.dfy ===
/** The client-side dispatcher scripts/form-backup.js: it validates the form, then sends the
    submission through EmailJS, through the FormSubmit relay and into a localStorage backup,
    all at once, and reports success when any of the three reports success. */
module FormBackup {
  import opened Wrappers
  import Json
  import Text

  /** The form's fields as an object: field name to string value. */
  type FormData = map<string, string>

  const Required: seq<string> := ["name", "email", "subject", "message"]
  const MsgRequired: string := "Please fill in all required fields."
  const MsgAllFailed: string := "All sending methods failed. Please try emailing directly."
  const MsgSuccess: string := "Message sent successfully! I'll get back to you soon."

  /** `data.key`: `None` when the form has no such field (`undefined`). */
  function Get(data: FormData, key: string): Option<string> {
    if key in data then Some(data[key]) else None
  }

  /** JavaScript's `||` defaulting of a possibly undefined string: the default replaces an
      undefined or empty value. */
  function OrDefault(v: Option<string>, default: string): (r: string)
    ensures v.Some? && v.value != "" ==> r == v.value
    ensures v.None? || v.value == "" ==> r == default
  {
    if v.Some? && v.value != "" then v.value else default
  }

  /** A template literal's rendering of a possibly undefined string. */
  function Render(v: Option<string>): string {
    if v.Some? then v.value else "undefined"
  }

  // ---------------------------------------------------------------------------
  // Validation

  /** The characters String.prototype.trim removes: ECMAScript white space and line terminators. */
  predicate IsJsSpace(c: char) {
    c == '\t' || c == '\n' || c == '\U{000B}' || c == '\U{000C}' || c == '\r' || c == ' '
    || c == '\U{00A0}' || c == '\U{1680}' || ('\U{2000}' <= c <= '\U{200A}')
    || c == '\U{2028}' || c == '\U{2029}' || c == '\U{202F}' || c == '\U{205F}'
    || c == '\U{3000}' || c == '\U{FEFF}'
  }

  function JsTrim(s: string): string {
    Text.Trim(s, IsJsSpace)
  }

  /** The truthiness test validate() applies to one field: defined, non-empty, and still
      non-empty after trimming. */
  predicate Filled(data: FormData, field: string) {
    field in data && data[field] != "" && JsTrim(data[field]) != ""
  }

  /** The `every` over the required fields, evaluated left to right. */
  function Every(fields: seq<string>, data: FormData): (r: bool)
    ensures r <==> forall i :: 0 <= i < |fields| ==> fields[i] in data && JsTrim(data[fields[i]]) != ""
    decreases |fields|
  {
    if |fields| == 0 then true
    else
      assert fields[0] in data && JsTrim(data[fields[0]]) != "" ==> data[fields[0]] != "";
      Filled(data, fields[0]) && Every(fields[1..], data)
  }

  /** validate(): each required field is present and has a non-space character. */
  function Validate(data: FormData): (r: bool)
    ensures r <==> forall f :: f in Required ==> f in data && exists k :: 0 <= k < |data[f]| && !IsJsSpace(data[f][k])
  {
    var r := Every(Required, data);
    forall f | f in data ensures JsTrim(data[f]) != "" <==> exists k :: 0 <= k < |data[f]| && !IsJsSpace(data[f][k]) {
      TrimEmptyIffBlank(data[f]);
    }
    r
  }

  /** A string trims to nothing exactly when all its characters are white space. */
  lemma TrimEmptyIffBlank(s: string)
    ensures JsTrim(s) == "" <==> Text.All(s, IsJsSpace)
  {
    var t := JsTrim(s);
    var start := Text.TrimStart(s, IsJsSpace);
    if t == "" {
      assert s[..start] + s[start..] == s;
    }
  }

  // ---------------------------------------------------------------------------
  // The three channels

  /** `templateParams` of sendViaEmailJS. */
  datatype TemplateParams = TemplateParams(
    toName: string, fromName: Option<string>, fromEmail: Option<string>, phone: string,
    subject: Option<string>, message: Option<string>, replyTo: Option<string>)

  /** The body posted to FormSubmit by sendViaSMTP. */
  datatype RelayBody = RelayBody(
    name: Option<string>, email: Option<string>, phone: string, subject: Option<string>,
    message: Option<string>, mailSubject: string, template: string)

  /** A channel's payload, if it got as far as building one, and the boolean it resolves to. */
  datatype ChannelRun<P> = ChannelRun(payload: Option<P>, ok: bool)

  /** The EmailJS library: whether it is already loaded, whether loading it works, whether
      emailjs.send resolves. */
  datatype EmailJsEnv = EmailJsEnv(loaded: bool, loadSucceeds: bool, sendSucceeds: bool)

  /** The `templateParams` object sendViaEmailJS builds: the form's fields under EmailJS's names,
      with the phone defaulted by `||`. */
  function TemplateParamsOf(data: FormData): (p: TemplateParams)
    ensures p.toName == "Bright Safari"
    ensures p.fromName == Get(data, "name") && p.subject == Get(data, "subject") && p.message == Get(data, "message")
    ensures p.replyTo == p.fromEmail == Get(data, "email")
    ensures p.phone == (if Get(data, "phone").Some? && data["phone"] != "" then data["phone"] else "Not provided")
  {
    TemplateParams("Bright Safari", Get(data, "name"), Get(data, "email"), OrDefault(Get(data, "phone"), "Not provided"),
                   Get(data, "subject"), Get(data, "message"), Get(data, "email"))
  }

  /** sendViaEmailJS: a failed script load or a rejected send is caught and becomes `false`. */
  function SendViaEmailJs(data: FormData, env: EmailJsEnv): (r: ChannelRun<TemplateParams>)
    ensures r.ok <==> (env.loaded || env.loadSucceeds) && env.sendSucceeds
    ensures r.payload.Some? <==> env.loaded || env.loadSucceeds
    ensures r.payload.Some? ==> r.payload.value == TemplateParamsOf(data)
  {
    if !env.loaded && !env.loadSucceeds then ChannelRun(None, false)
    else ChannelRun(Some(TemplateParamsOf(data)), env.sendSucceeds)
  }

  /** What came back from FormSubmit: a network failure, or an HTTP reply whose body is not
      JSON, is JSON null, or is some other JSON value with or without a `success` property. */
  datatype ReplyBody = NotJson | JsonNull | JsonValue(success: Option<Json.Value>)
  datatype RelayReply = NetworkError | Replied(httpOk: bool, body: ReplyBody)

  /** The JSON body sendViaSMTP posts: the form's fields as they are, the phone defaulted to ""
      by `||`, and FormSubmit's `_subject` and `_template` settings. */
  function RelayBodyOf(data: FormData): (b: RelayBody)
    ensures b.name == Get(data, "name") && b.email == Get(data, "email")
    ensures b.subject == Get(data, "subject") && b.message == Get(data, "message")
    ensures b.mailSubject == "New message from " + Render(Get(data, "name"))
    ensures b.phone == (if Get(data, "phone").Some? && data["phone"] != "" then data["phone"] else "")
    ensures b.template == "table"
  {
    RelayBody(Get(data, "name"), Get(data, "email"), OrDefault(Get(data, "phone"), ""), Get(data, "subject"),
              Get(data, "message"), "New message from " + Render(Get(data, "name")), "table")
  }

  /** sendViaSMTP: success needs an HTTP ok status and a `success` property that is strictly
      the string "true"; every other outcome, thrown or not, is caught and becomes `false`. */
  function SendViaRelay(data: FormData, reply: RelayReply): (r: ChannelRun<RelayBody>)
    ensures r.payload == Some(RelayBodyOf(data))
    ensures r.ok <==> reply == Replied(true, JsonValue(Some(Json.Str("true"))))
  {
    var ok := match reply
      case NetworkError => false
      case Replied(httpOk, body) =>
        match body
        case NotJson => false
        case JsonNull => false
        case JsonValue(success) => httpOk && success == Some(Json.Str("true"));
    ChannelRun(Some(RelayBodyOf(data)), ok)
  }

  /** The `contact_messages` item of localStorage: absent (or ""), unusable (storage throws,
      invalid JSON, or JSON without a push method), or the list of stored records. */
  datatype Store = NoItem | Unusable | Records(records: seq<map<string, string>>)

  /** The store, whether setItem succeeds (it throws when the quota is exceeded), and the
      ISO timestamp `new Date().toISOString()` gives. */
  datatype BackupEnv = BackupEnv(store: Store, writeSucceeds: bool, now: string)

  datatype BackupRun = BackupRun(ok: bool, store: Store)

  function StoredRecords(s: Store): seq<map<string, string>> {
    if s.Records? then s.records else []
  }

  /** The backup record: the generated timestamp, then the form fields, then the status; later
      keys win, so the status is always pending and a form field named `timestamp` replaces
      the generated one. */
  function BackupRecord(data: FormData, now: string): (rec: map<string, string>)
    ensures rec.Keys == data.Keys + {"timestamp", "status"}
    ensures rec["status"] == "pending"
    ensures rec["timestamp"] == if "timestamp" in data then data["timestamp"] else now
    ensures forall k :: k in data && k != "status" ==> rec[k] == data[k]
  {
    map["timestamp" := now] + data + map["status" := "pending"]
  }

  /** createLocalBackup: one record appended after the earlier ones, or `false` with the store
      left as it was. */
  function LocalBackup(data: FormData, env: BackupEnv): (r: BackupRun)
    ensures r.ok <==> !env.store.Unusable? && env.writeSucceeds
    ensures r.ok ==> r.store.Records? && |r.store.records| == |StoredRecords(env.store)| + 1
    ensures r.ok ==> r.store.records[..|StoredRecords(env.store)|] == StoredRecords(env.store)
    ensures r.ok ==> r.store.records[|StoredRecords(env.store)|] == BackupRecord(data, env.now)
    ensures !r.ok ==> r.store == env.store
  {
    if env.store.Unusable? || !env.writeSucceeds then BackupRun(false, env.store)
    else BackupRun(true, Records(StoredRecords(env.store) + [BackupRecord(data, env.now)]))
  }

  // ---------------------------------------------------------------------------
  // Aggregation

  /** A settled promise as Promise.allSettled reports it. */
  datatype Settled = Fulfilled(value: bool) | Rejected

  /** Some channel's promise fulfilled with a truthy value. */
  function AnySucceeded(results: seq<Settled>): (r: bool)
    ensures r <==> exists i :: 0 <= i < |results| && results[i] == Fulfilled(true)
    decreases |results|
  {
    if |results| == 0 then false
    else if results[0] == Fulfilled(true) then true
    else
      var r := AnySucceeded(results[1..]);
      assert r ==> exists i :: 1 <= i < |results| && results[i] == Fulfilled(true) by {
        if r {
          var j :| 0 <= j < |results[1..]| && results[1..][j] == Fulfilled(true);
          assert results[j + 1] == Fulfilled(true);
        }
      }
      r
  }

  /** The order in which the channels settle does not change the verdict. */
  lemma AnySucceededIgnoresOrder(a: seq<Settled>, b: seq<Settled>)
    requires multiset(a) == multiset(b)
    ensures AnySucceeded(a) == AnySucceeded(b)
  {
    if AnySucceeded(a) {
      var i :| 0 <= i < |a| && a[i] == Fulfilled(true);
      assert a[i] in multiset(b);
    }
    if AnySucceeded(b) {
      var j :| 0 <= j < |b| && b[j] == Fulfilled(true);
      assert b[j] in multiset(a);
    }
  }

  // ---------------------------------------------------------------------------
  // handleSubmit

  datatype SubmitEnv = SubmitEnv(emailJs: EmailJsEnv, relay: RelayReply, backup: BackupEnv)

  /** What one submission produces: the status shown, whether the form was reset, the channel
      runs (absent when no channel was invoked) and the backup store afterwards. */
  datatype Submit = Submit(
    kind: string, message: string, formReset: bool,
    emailJs: Option<ChannelRun<TemplateParams>>, relay: Option<ChannelRun<RelayBody>>,
    backup: Option<bool>, store: Store)

  /** The `Promise.allSettled` part of handleSubmit: all three channels run, and the submission succeeds when any of them
      resolved to `true`. */
  function Dispatch(data: FormData, env: SubmitEnv): (s: Submit)
    ensures s.emailJs == Some(SendViaEmailJs(data, env.emailJs)) && s.relay == Some(SendViaRelay(data, env.relay))
    ensures s.backup == Some(LocalBackup(data, env.backup).ok) && s.store == LocalBackup(data, env.backup).store
    ensures s.formReset <==> s.emailJs.value.ok || s.relay.value.ok || s.backup.value
    ensures s.formReset ==> s.kind == "success" && s.message == MsgSuccess
    ensures !s.formReset ==> s.kind == "error" && s.message == MsgAllFailed
  {
    var e := SendViaEmailJs(data, env.emailJs);
    var r := SendViaRelay(data, env.relay);
    var b := LocalBackup(data, env.backup);
    var results := [Fulfilled(e.ok), Fulfilled(r.ok), Fulfilled(b.ok)];
    assert e.ok ==> results[0] == Fulfilled(true);
    assert r.ok ==> results[1] == Fulfilled(true);
    assert b.ok ==> results[2] == Fulfilled(true);
    if AnySucceeded(results) then
      Submit("success", MsgSuccess, true, Some(e), Some(r), Some(b.ok), b.store)
    else
      Submit("error", MsgAllFailed, false, Some(e), Some(r), Some(b.ok), b.store)
  }

  /** handleSubmit: a form that fails validation reaches no channel and shows the
      required-fields error; otherwise the channels decide. */
  function HandleSubmit(data: FormData, env: SubmitEnv): (s: Submit)
    ensures !Validate(data) ==> s == Submit("error", MsgRequired, false, None, None, None, env.backup.store)
    ensures Validate(data) ==> s.emailJs.Some? && s.relay.Some? && s.backup.Some?
    ensures Validate(data) ==> (s.formReset <==> s.emailJs.value.ok || s.relay.value.ok || s.backup.value)
    ensures s.formReset <==> s.kind == "success"
    ensures Validate(data) && !s.formReset ==> s.message == MsgAllFailed
    ensures Validate(data) ==> s == Dispatch(data, env)
  {
    if !Validate(data) then Submit("error", MsgRequired, false, None, None, None, env.backup.store)
    else Dispatch(data, env)
  }

  /** A working local backup alone makes the submission succeed, even when EmailJS and the
      relay both fail. */
  lemma BackupAloneSucceeds(data: FormData, env: SubmitEnv)
    requires !env.emailJs.sendSucceeds && env.relay == NetworkError
    requires !env.backup.store.Unusable? && env.backup.writeSucceeds
    ensures Validate(data) ==> HandleSubmit(data, env).formReset && HandleSubmit(data, env).store.Records?
  {
  }
}

=== FILE: form_status.dfy ===
/** The `.form-status` element both scripts put after the contact form: each call removes the
    first existing one and inserts a fresh one right after the form; a timer later fades the
    element out and removes it if it is still attached. */
module FormStatus {

  /** A status element: an id to tell elements apart, its kind (`success`, `error`, ...), the
      Font Awesome icon name and the text. */
  datatype Elem = Elem(id: nat, kind: string, icon: string, message: string)

  /** The status elements after the form, in document order. */
  type Area = seq<Elem>

  /** scripts/main.js showFormStatus: the icon table with `info-circle` for any other kind. */
  function PageIcon(kind: string): (icon: string)
    ensures icon in {"check-circle", "exclamation-circle", "info-circle"}
    ensures icon == "check-circle" <==> kind == "success"
    ensures icon == "exclamation-circle" <==> kind == "error"
  {
    var icons := map["success" := "check-circle", "error" := "exclamation-circle", "info" := "info-circle"];
    if kind in icons then icons[kind] else "info-circle"
  }

  /** scripts/form-backup.js showStatus: a check for success, an exclamation mark otherwise. */
  function BackupIcon(kind: string): (icon: string)
    ensures icon == "check-circle" <==> kind == "success"
    ensures icon != "check-circle" ==> icon == "exclamation-circle"
  {
    if kind == "success" then "check-circle" else "exclamation-circle"
  }

  /** Remove the first existing status (querySelector finds only one) and insert `e` first. */
  function Show(area: Area, e: Elem): (r: Area)
    ensures |r| >= 1 && r[0] == e
    ensures |area| <= 1 ==> r == [e]
    ensures |r| == if |area| == 0 then 1 else |area|
    ensures |area| > 0 ==> r[1..] == area[1..]
  {
    [e] + (if |area| == 0 then [] else area[1..])
  }

  /** The timer of element `id`: it is removed if it is still in the document. */
  function Expire(area: Area, id: nat): (r: Area)
    ensures |r| <= |area|
    ensures forall k :: 0 <= k < |r| ==> r[k].id != id && r[k] in area
    ensures forall k :: 0 <= k < |area| && area[k].id != id ==> area[k] in r
    ensures (forall k :: 0 <= k < |area| ==> area[k].id != id) ==> r == area
    ensures |area| == 1 ==> r == if area[0].id == id then [] else area
    decreases |area|
  {
    if |area| == 0 then []
    else if area[0].id == id then Expire(area[1..], id)
    else [area[0]] + Expire(area[1..], id)
  }

  /** Expiring works element by element: the kept elements of a concatenation are those of
      each part, in document order. With the single-element case this pins Expire to the
      in-order filter of the area. */
  lemma {:induction false} ExpireAppend(a: Area, b: Area, id: nat)
    ensures Expire(a + b, id) == Expire(a, id) + Expire(b, id)
    decreases |a|
  {
    if |a| > 0 {
      assert (a + b)[1..] == a[1..] + b;
      ExpireAppend(a[1..], b, id);
    } else {
      assert a + b == b;
    }
  }

  datatype Event = Shown(e: Elem) | Expired(id: nat)

  function Step(area: Area, ev: Event): Area {
    match ev
    case Shown(e) => Show(area, e)
    case Expired(id) => Expire(area, id)
  }

  function Replay(area: Area, evs: seq<Event>): Area
    decreases |evs|
  {
    if |evs| == 0 then area else Replay(Step(area, evs[0]), evs[1..])
  }

  /** Starting from at most one status element, any sequence of calls and timers leaves at most
      one, and right after a call it is exactly the one just shown. */
  lemma {:induction false} AtMostOneStatus(area: Area, evs: seq<Event>)
    requires |area| <= 1
    ensures |Replay(area, evs)| <= 1
    ensures |evs| > 0 && evs[|evs| - 1].Shown? ==> Replay(area, evs) == [evs[|evs| - 1].e]
    decreases |evs|
  {
    if |evs| > 0 {
      var next := Step(area, evs[0]);
      assert |next| <= 1;
      AtMostOneStatus(next, evs[1..]);
      if |evs| == 1 {
        assert Replay(next, evs[1..]) == next;
      } else {
        assert evs[1..][|evs[1..]| - 1] == evs[|evs| - 1];
      }
    }
  }
}

=== FILE: json.dfy ===
/** The values a decoded JSON document can hold, as far as the contact-form code inspects them. */
module Json {

  /** A decoded JSON value. Numbers are integers (fractions are not modelled); a list or an
      object is kept only with its element count, because the code only ever asks whether it
      is empty or uses it where a string is expected. */
  datatype Value = Null | Bool(b: bool) | Int(i: int) | Str(s: string) | Array(size: nat)
}

=== FILE: page.dfy ===
/** The decision rules of the page script scripts/main.js, each as a small state machine over
    the piece of page state it owns. */

/** Dark/light theme: the `dark-theme` class on the body, the toggle buttons' icon, and the
    `portfolio-theme` item of localStorage. */
module Theme {
  import opened Wrappers

  datatype Icon = Moon | Sun

  datatype ThemeState = ThemeState(dark: bool, icon: Icon, saved: Option<string>)

  /** The page as served: light, with the moon icon, and whatever the browser has stored. */
  function Loaded(saved: Option<string>): ThemeState {
    ThemeState(false, Moon, saved)
  }

  /** The stored name of a theme. */
  function ThemeName(dark: bool): string {
    if dark then "dark" else "light"
  }

  /** The condition of initTheme: "dark" is stored, or nothing truthy is and the system
      prefers dark. */
  predicate StartsDark(saved: Option<string>, prefersDark: bool) {
    saved == Some("dark") || ((saved == None || saved == Some("")) && prefersDark)
  }

  /** initTheme: go dark when the stored theme is "dark", or when nothing usable is stored
      (an empty stored string is falsy too) and the system prefers dark. Nothing is ever removed. */
  function InitTheme(page: ThemeState, prefersDark: bool): (r: ThemeState)
    ensures r.saved == page.saved
    ensures r.dark <==> page.dark || page.saved == Some("dark") || ((page.saved == None || page.saved == Some("")) && prefersDark)
    ensures r.dark != page.dark ==> r.icon == Sun
    ensures StartsDark(page.saved, prefersDark) ==> r == page.(dark := true, icon := Sun)
    ensures !StartsDark(page.saved, prefersDark) ==> r == page
  {
    var saved := page.saved;
    if saved == Some("dark") || ((saved.None? || saved.value == "") && prefersDark) then
      page.(dark := true, icon := Sun)
    else page
  }

  /** The icon shows the theme a click switches to, and the store holds the current theme. */
  predicate Consistent(s: ThemeState) {
    (s.icon == Sun <==> s.dark) && s.saved == Some(ThemeName(s.dark))
  }

  /** toggleTheme: flip the class; icon and stored value are derived from the old state. */
  function ToggleTheme(s: ThemeState): (r: ThemeState)
    ensures r.dark == !s.dark
    ensures Consistent(r)
  {
    var wasDark := s.dark;
    ThemeState(!wasDark, if wasDark then Moon else Sun, Some(if wasDark then "light" else "dark"))
  }

  /** Toggling twice restores the theme, and restores the whole state when it was consistent. */
  lemma ToggleTwice(s: ThemeState)
    ensures ToggleTheme(ToggleTheme(s)).dark == s.dark
    ensures Consistent(s) ==> ToggleTheme(ToggleTheme(s)) == s
  {
  }

  /** After a toggle, reloading the page brings the same theme back whatever the system
      prefers. */
  lemma ReloadKeepsToggledTheme(s: ThemeState, prefersDark: bool)
    ensures InitTheme(Loaded(ToggleTheme(s).saved), prefersDark) == ToggleTheme(s)
  {
  }
}

/** The mobile menu: its `active` class and the body's overflow style. */
module MobileMenu {

  datatype Menu = Menu(active: bool, overflow: string)

  /** The page scrolls unless the menu is open. */
  predicate Consistent(m: Menu) {
    m.overflow == if m.active then "hidden" else ""
  }

  /** toggleMobileMenu: flip `active`, then set the overflow from the new state. */
  function ToggleMenu(m: Menu): (r: Menu)
    ensures r.active == !m.active
    ensures Consistent(r)
  {
    var active := !m.active;
    Menu(active, if active then "hidden" else "")
  }

  /** The menu-open analytics event fires exactly when the toggle opens the menu. */
  function OpensMenu(m: Menu): (opening: bool)
    ensures opening <==> ToggleMenu(m).active
  {
    !m.active
  }

  /** closeMobileMenu. */
  function CloseMenu(m: Menu): (r: Menu)
    ensures !r.active && Consistent(r)
  {
    Menu(false, "")
  }

  /** A click inside the menu overlay closes it only when it hits the overlay itself. */
  function OverlayClick(m: Menu, onOverlay: bool): (r: Menu)
    ensures onOverlay ==> r == Menu(false, "")
    ensures !onOverlay ==> r == m
  {
    if onOverlay then CloseMenu(m) else m
  }

  /** The smooth-scroll handler of an in-page anchor: it closes the menu unless the anchor is
      the bare "#" or its target is missing. */
  function AnchorClick(m: Menu, href: string, targetExists: bool): (r: Menu)
    ensures href != "#" && targetExists ==> r == Menu(false, "")
    ensures href == "#" || !targetExists ==> r == m
  {
    if href == "#" || !targetExists then m else CloseMenu(m)
  }

  /** A link of the mobile menu runs the smooth-scroll handler and its own closeMobileMenu
      listener, so it closes the menu whatever its target. */
  function MobileLinkClick(m: Menu, href: string, targetExists: bool): (r: Menu)
    ensures r == Menu(false, "")
  {
    CloseMenu(AnchorClick(m, href, targetExists))
  }

  /** Toggling twice restores a consistent menu; closing is idempotent. */
  lemma MenuRoundTrips(m: Menu)
    ensures Consistent(m) ==> ToggleMenu(ToggleMenu(m)) == m
    ensures CloseMenu(CloseMenu(m)) == CloseMenu(m)
    ensures Consistent(ToggleMenu(m)) && Consistent(CloseMenu(m))
  {
  }
}

/** The navbar scroll effect: compact above 100px, hidden while scrolling down. */
module Navbar {

  const Threshold: int := 100

  /** `lastScrollTop` and the style the handler last wrote: hidden (translateY(-100%)) and
      compact (reduced padding plus shadow). */
  datatype Nav = Nav(lastScrollTop: int, hidden: bool, compact: bool)

  const Initial: Nav := Nav(0, false, false)

  /** One scroll event at `top`. */
  function OnScroll(s: Nav, top: int): (r: Nav)
    ensures r.lastScrollTop == top
    ensures top <= Threshold ==> !r.hidden && !r.compact
    ensures top > Threshold ==> r.compact && (r.hidden <==> top > s.lastScrollTop)
  {
    if top > Threshold then Nav(top, top > s.lastScrollTop, true)
    else Nav(top, false, false)
  }

  function Replay(s: Nav, tops: seq<int>): Nav
    decreases |tops|
  {
    if |tops| == 0 then s else Replay(OnScroll(s, tops[0]), tops[1..])
  }

  /** After any run of scroll events the navbar depends only on the last two positions: it
      is hidden exactly when the last one is past 100 and below the one before. */
  lemma {:induction false} ReplayDependsOnLastTwo(s: Nav, tops: seq<int>)
    requires |tops| > 0
    ensures var r := Replay(s, tops);
      var last := tops[|tops| - 1];
      var before := if |tops| == 1 then s.lastScrollTop else tops[|tops| - 2];
      && r.lastScrollTop == last
      && r.compact == (last > Threshold)
      && r.hidden == (last > Threshold && last > before)
    decreases |tops|
  {
    var next := OnScroll(s, tops[0]);
    if |tops| == 1 {
      assert Replay(next, tops[1..]) == next;
    } else {
      ReplayDependsOnLastTwo(next, tops[1..]);
      assert tops[1..][|tops| - 2] == tops[|tops| - 1];
      if |tops| > 2 {
        assert tops[1..][|tops| - 3] == tops[|tops| - 2];
      }
    }
  }
}

/** Scroll-depth tracking: each section id sends `section_view` the first time it is seen. */
module SectionTracking {

  /** One IntersectionObserver entry: the section's id and whether it is intersecting. */
  datatype Entry = Entry(id: string, intersecting: bool)

  /** The viewed set afterwards and whether a `section_view` event is sent. */
  function OnEntry(viewed: set<string>, e: Entry): (r: (set<string>, bool))
    ensures r.1 <==> e.intersecting && e.id !in viewed
    ensures r.0 == if r.1 then viewed + {e.id} else viewed
  {
    if e.intersecting && e.id !in viewed then (viewed + {e.id}, true) else (viewed, false)
  }

  /** The viewed set after a run of entries and the ids sent, in order. */
  function Replay(viewed: set<string>, es: seq<Entry>): (set<string>, seq<string>)
    decreases |es|
  {
    if |es| == 0 then (viewed, [])
    else
      var step := OnEntry(viewed, es[0]);
      var rest := Replay(step.0, es[1..]);
      (rest.0, (if step.1 then [es[0].id] else []) + rest.1)
  }

  /** The viewed set only grows, by exactly the ids sent; no id is sent twice, and none that
      was already viewed. */
  lemma {:induction false} EachSectionOnce(viewed: set<string>, es: seq<Entry>)
    ensures var r := Replay(viewed, es);
      && viewed <= r.0
      && r.0 == viewed + (set x | x in r.1)
      && (forall k :: 0 <= k < |r.1| ==> r.1[k] !in viewed)
      && (forall j, k :: 0 <= j < k < |r.1| ==> r.1[j] != r.1[k])
    decreases |es|
  {
    if |es| > 0 {
      var step := OnEntry(viewed, es[0]);
      var rest := Replay(step.0, es[1..]);
      EachSectionOnce(step.0, es[1..]);
      var sent := (if step.1 then [es[0].id] else []) + rest.1;
      assert Replay(viewed, es) == (rest.0, sent);
      if step.1 {
        assert forall k :: 1 <= k < |sent| ==> sent[k] == rest.1[k - 1];
        assert (set x | x in sent) == {es[0].id} + (set x | x in rest.1);
      } else {
        assert sent == rest.1;
      }
    }
  }
}

/** The device type reported on resize. */
module Device {

  datatype DeviceType = Mobile | Tablet | Desktop

  /** Narrow windows are phones, up to 992px tablets, anything wider desktops. */
  function Classify(width: int): (d: DeviceType)
    ensures d == Mobile <==> width < 768
    ensures d == Tablet <==> 768 <= width < 992
    ensures d == Desktop <==> width >= 992
  {
    if width < 768 then Mobile else if width < 992 then Tablet else Desktop
  }

  function Rank(d: DeviceType): nat {
    match d
    case Mobile => 0
    case Tablet => 1
    case Desktop => 2
  }

  /** A wider window never gets a smaller device type. */
  lemma ClassifyMonotone(w1: int, w2: int)
    requires w1 <= w2
    ensures Rank(Classify(w1)) <= Rank(Classify(w2))
  {
  }
}

/** The page script's own submit handler, which checks less than the dispatcher does. */
module PageForm {
  import FormBackup
  import FormStatus

  datatype Outcome = Rejected(status: FormStatus.Elem) | Submitting

  /** The page handler's check: name, email and message are present and non-empty; the
      subject is not checked and white space counts as content. */
  predicate Accepts(data: FormBackup.FormData) {
    forall f :: f in ["name", "email", "message"] ==> f in data && data[f] != ""
  }

  /** handleFormSubmit: an error status with the required-fields message, or the form is sent. */
  function HandleFormSubmit(data: FormBackup.FormData, id: nat): (r: Outcome)
    ensures r.Submitting? <==> Accepts(data)
    ensures r.Rejected? ==> r.status.icon == "exclamation-circle" && r.status.message == "Please fill in all required fields."
    ensures r.Rejected? ==> r.status.kind == "error" && r.status.id == id
  {
    if !("name" in data && data["name"] != "") || !("email" in data && data["email"] != "") || !("message" in data && data["message"] != "") then
      Rejected(FormStatus.Elem(id, "error", FormStatus.PageIcon("error"), "Please fill in all required fields."))
    else Submitting
  }

  /** Whatever the dispatcher accepts this handler accepts too. */
  lemma PageCheckIsWeaker(data: FormBackup.FormData)
    ensures FormBackup.Validate(data) ==> Accepts(data)
  {
    if FormBackup.Validate(data) {
      assert FormBackup.Required[0] == "name" && FormBackup.Required[1] == "email" && FormBackup.Required[3] == "message";
    }
  }

  /** ... but not the other way round: a form without a subject passes here only. */
  lemma PageCheckIsStrictlyWeaker()
    ensures var noSubject := map["name" := "Ada", "email" := "ada@x.com", "message" := "Hi"];
      Accepts(noSubject) && !FormBackup.Validate(noSubject)
  {
    var noSubject := map["name" := "Ada", "email" := "ada@x.com", "message" := "Hi"];
    assert FormBackup.Required[2] == "subject" && "subject" !in noSubject;
  }
}

=== FILE: php.dfy ===
/** The parts of PHP's value and string semantics the contact handler relies on.
    PHP strings are byte strings; here each `char` stands for one byte. */
module Php {
  import opened Wrappers
  import opened Json
  import Text

  // ---------------------------------------------------------------------------
  // Truthiness, empty() and isset()

  /** A string is false in a boolean context iff it is "" or "0". */
  predicate Truthy(s: string) {
    s != "" && s != "0"
  }

  /** PHP's empty() on an array lookup, where `None` stands for an absent key. */
  predicate Empty(v: Option<Value>) {
    match v
    case None => true
    case Some(Null) => true
    case Some(Bool(b)) => !b
    case Some(Int(i)) => i == 0
    case Some(Str(s)) => !Truthy(s)
    case Some(Array(n)) => n == 0
  }

  /** PHP's isset() on an array lookup: present and not null. */
  predicate IsSet(v: Option<Value>) {
    v.Some? && !v.value.Null?
  }

  // ---------------------------------------------------------------------------
  // Integer to string conversion

  predicate IsDigit(c: char) {
    '0' <= c <= '9'
  }

  function DigitChar(d: nat): char
    requires d < 10
  {
    "0123456789"[d]
  }

  /** The decimal digits of `n`, without leading zeros. */
  function NatToDecimal(n: nat): (r: string)
    ensures |r| > 0 && Text.All(r, IsDigit)
    ensures r[0] == '0' ==> n == 0
    ensures n == 0 ==> r == "0"
    decreases n
  {
    if n < 10 then [DigitChar(n)] else NatToDecimal(n / 10) + [DigitChar(n % 10)]
  }

  /** The number a string of decimal digits denotes. */
  function DecimalValue(s: string): nat
    requires Text.All(s, IsDigit)
  {
    if s == [] then 0
    else DecimalValue(s[..|s| - 1]) * 10 + (s[|s| - 1] as int - '0' as int)
  }

  lemma {:induction false} DecimalRoundTrip(n: nat)
    ensures DecimalValue(NatToDecimal(n)) == n
    decreases n
  {
    if n >= 10 {
      var r := NatToDecimal(n);
      assert r[..|r| - 1] == NatToDecimal(n / 10);
      DecimalRoundTrip(n / 10);
    }
  }

  /** The string PHP makes of an integer: an optional minus sign and the digits of its
      magnitude, with no leading zero. */
  function IntToDecimal(i: int): (r: string)
    ensures |r| > 0
    ensures i >= 0 ==> Text.All(r, IsDigit) && DecimalValue(r) == i
    ensures i < 0 ==> |r| > 1 && r[0] == '-' && Text.All(r[1..], IsDigit) && DecimalValue(r[1..]) == -i
    ensures i != 0 ==> r[if i < 0 then 1 else 0] != '0'
    ensures i == 0 ==> r == "0"
  {
    if i < 0 then
      DecimalRoundTrip(-i);
      assert ("-" + NatToDecimal(-i))[1..] == NatToDecimal(-i);
      "-" + NatToDecimal(-i)
    else
      DecimalRoundTrip(i);
      NatToDecimal(i)
  }

  /** A scalar passed where a string parameter is expected (non-strict mode): `None` for an
      array, which makes PHP raise a TypeError. */
  function ToStringArg(v: Value): (r: Option<string>)
    ensures r.None? <==> v.Array?
    ensures v.Str? ==> r == Some(v.s)
    ensures v.Int? ==> r == Some(IntToDecimal(v.i))
    ensures v == Bool(true) ==> r == Some("1")
    ensures r.Some? ==> (r.value == "" <==> v.Null? || v == Bool(false) || v == Str(""))
    ensures r.Some? && !Empty(Some(v)) ==> Truthy(r.value)
  {
    match v
    case Null => Some("")
    case Bool(b) => Some(if b then "1" else "")
    case Int(i) =>
      var s := IntToDecimal(i);
      assert s == "0" ==> i == 0 by {
        if s == "0" && i >= 0 { assert DecimalValue(s) == 0; }
      }
      Some(s)
    case Str(s) => Some(s)
    case Array(_) => None
  }

  // ---------------------------------------------------------------------------
  // Loose comparison with a word

  /** A non-empty lower-case word such as "true": never a numeric string, so PHP 8 compares
      other values with it as text. */
  predicate IsWord(w: string) {
    |w| > 0 && forall i :: 0 <= i < |w| ==> 'a' <= w[i] <= 'z'
  }

  /** PHP 8 loose equality between a value and a word: null compares as "", a boolean compares
      with the word's truthiness, an integer is compared as its decimal string, an array is
      never equal. */
  function LooseEqualsWord(v: Value, w: string): bool
    requires IsWord(w)
  {
    match v
    case Null => w == ""
    case Bool(b) => b == Truthy(w)
    case Int(i) => IntToDecimal(i) == w
    case Str(s) => s == w
    case Array(_) => false
  }

  /** Exactly two decoded values loosely equal "true": the string itself and boolean true. */
  lemma LooseEqualsTrue(v: Value)
    ensures LooseEqualsWord(v, "true") <==> v == Str("true") || v == Bool(true)
  {
    if v.Int? {
      var d := IntToDecimal(v.i);
      assert d[0] == '-' || IsDigit(d[0]);
      assert d != "true";
    }
  }

  // ---------------------------------------------------------------------------
  // trim, stripslashes, htmlspecialchars

  /** The characters trim() removes by default: space, tab, newline, carriage return, NUL and
      vertical tab. */
  predicate IsTrimChar(c: char) {
    c == ' ' || c == '\t' || c == '\n' || c == '\r' || c == '\0' || c == '\U{000B}'
  }

  function Trim(s: string): string {
    Text.Trim(s, IsTrimChar)
  }

  /** stripslashes(): a backslash is dropped and the character after it kept literally, except
      that backslash-zero becomes NUL; a lone trailing backslash disappears. */
  function StripSlashes(s: string): (r: string)
    ensures |r| <= |s|
    ensures '\\' !in s ==> r == s
    decreases |s|
  {
    if |s| == 0 then ""
    else if s[0] == '\\' then
      if |s| == 1 then ""
      else (if s[1] == '0' then "\0" else [s[1]]) + StripSlashes(s[2..])
    else
      assert '\\' !in s ==> '\\' !in s[1..];
      [s[0]] + StripSlashes(s[1..])
  }

  /** A backslash drops out and the character it escapes is kept (backslash-zero becomes NUL),
      whatever that character is: "C:\\Users" loses its backslash. */
  lemma {:induction false} StripSlashesDropsEscape(a: string, c: char, b: string)
    requires '\\' !in a
    ensures StripSlashes(a + ['\\', c] + b) == a + [if c == '0' then '\0' else c] + StripSlashes(b)
    decreases |a|
  {
    var s := a + ['\\', c] + b;
    if |a| == 0 {
      assert s == ['\\', c] + b && s[2..] == b;
    } else {
      assert s[0] == a[0] && s[1..] == a[1..] + ['\\', c] + b;
      StripSlashesDropsEscape(a[1..], c, b);
      assert a == [a[0]] + a[1..];
    }
  }

  /** addslashes(): quotes, backslash and NUL get a backslash in front (NUL is written "\0").
      It is the documented inverse of stripslashes() and is used here only to state that
      stripslashes() loses nothing of an escaped string. */
  function AddSlashes(s: string): string
  {
    if |s| == 0 then ""
    else SlashChar(s[0]) + AddSlashes(s[1..])
  }

  function SlashChar(c: char): string {
    if c == '\'' || c == '"' || c == '\\' then ['\\', c]
    else if c == '\0' then "\\0"
    else [c]
  }

  lemma {:induction false} StripSlashesInvertsAddSlashes(s: string)
    ensures StripSlashes(AddSlashes(s)) == s
    decreases |s|
  {
    if |s| > 0 {
      var c := s[0];
      var rest := AddSlashes(s[1..]);
      assert AddSlashes(s) == SlashChar(c) + rest;
      StripSlashesInvertsAddSlashes(s[1..]);
      if c == '\'' || c == '"' || c == '\\' {
        StripSlashesDropsEscape("", c, rest);
        assert "" + ['\\', c] + rest == SlashChar(c) + rest;
      } else if c == '\0' {
        StripSlashesDropsEscape("", '0', rest);
        assert "" + ['\\', '0'] + rest == SlashChar(c) + rest;
      } else {
        var e := [c] + rest;
        assert e[1..] == rest;
      }
      assert s == [c] + s[1..];
    }
  }

  /** The replacement htmlspecialchars() writes for one character. `quotes` is ENT_QUOTES, part
      of the default flags since PHP 8.1; without it a single quote is left alone. */
  function EncodeChar(c: char, quotes: bool): string {
    if c == '&' then "&amp;"
    else if c == '"' then "&quot;"
    else if c == '\'' && quotes then "&#039;"
    else if c == '<' then "&lt;"
    else if c == '>' then "&gt;"
    else [c]
  }

  /** No character that opens a tag or closes an attribute value. */
  predicate NoMarkup(s: string) {
    '<' !in s && '>' !in s && '"' !in s
  }

  /** htmlspecialchars() with double encoding on (the default). */
  function HtmlSpecialChars(s: string, quotes: bool): (r: string)
    ensures NoMarkup(r)
    ensures quotes ==> '\'' !in r
    ensures |r| >= |s|
    decreases |s|
  {
    if |s| == 0 then "" else EncodeChar(s[0], quotes) + HtmlSpecialChars(s[1..], quotes)
  }

  /** Decodes the five entities htmlspecialchars writes back to their characters; any other
      `&`, numeric character references included, stays as it is. */
  function DecodeSpecialChars(s: string): string
    decreases |s|
  {
    if |s| == 0 then ""
    else if s[0] != '&' then [s[0]] + DecodeSpecialChars(s[1..])
    else if Text.StartsWith(s, "&amp;") then "&" + DecodeSpecialChars(s[5..])
    else if Text.StartsWith(s, "&quot;") then "\"" + DecodeSpecialChars(s[6..])
    else if Text.StartsWith(s, "&#039;") then "'" + DecodeSpecialChars(s[6..])
    else if Text.StartsWith(s, "&lt;") then "<" + DecodeSpecialChars(s[4..])
    else if Text.StartsWith(s, "&gt;") then ">" + DecodeSpecialChars(s[4..])
    else "&" + DecodeSpecialChars(s[1..])
  }

  lemma DecodeEncodedChar(c: char, quotes: bool, rest: string)
    ensures DecodeSpecialChars(EncodeChar(c, quotes) + rest) == [c] + DecodeSpecialChars(rest)
  {
    var e := EncodeChar(c, quotes);
    var s := e + rest;
    if c == '&' {
      assert Text.StartsWith(s, "&amp;") && s[5..] == rest;
    } else if c == '"' {
      assert !Text.StartsWith(s, "&amp;") by { assert s[1] == 'q'; }
      assert Text.StartsWith(s, "&quot;") && s[6..] == rest;
    } else if c == '\'' && quotes {
      assert !Text.StartsWith(s, "&amp;") by { assert s[1] == '#'; }
      assert !Text.StartsWith(s, "&quot;") by { assert s[1] == '#'; }
      assert Text.StartsWith(s, "&#039;") && s[6..] == rest;
    } else if c == '<' {
      assert !Text.StartsWith(s, "&amp;") by { assert s[1] == 'l'; }
      assert !Text.StartsWith(s, "&quot;") by { assert s[1] == 'l'; }
      assert !Text.StartsWith(s, "&#039;") by { assert s[1] == 'l'; }
      assert Text.StartsWith(s, "&lt;") && s[4..] == rest;
    } else if c == '>' {
      assert !Text.StartsWith(s, "&amp;") by { assert s[1] == 'g'; }
      assert !Text.StartsWith(s, "&quot;") by { assert s[1] == 'g'; }
      assert !Text.StartsWith(s, "&#039;") by { assert s[1] == 'g'; }
      assert !Text.StartsWith(s, "&lt;") by { assert s[1] == 'g'; }
      assert Text.StartsWith(s, "&gt;") && s[4..] == rest;
    } else {
      assert e == [c];
      assert s[0] == c && s[1..] == rest;
    }
  }

  /** Escaping loses nothing: decoding gives back the original text. */
  lemma {:induction false} DecodeInvertsHtmlSpecialChars(s: string, quotes: bool)
    ensures DecodeSpecialChars(HtmlSpecialChars(s, quotes)) == s
    decreases |s|
  {
    if |s| > 0 {
      DecodeEncodedChar(s[0], quotes, HtmlSpecialChars(s[1..], quotes));
      DecodeInvertsHtmlSpecialChars(s[1..], quotes);
      assert s == [s[0]] + s[1..];
    }
  }

  /** validate_input() of contact-handler.php: trim, then stripslashes, then htmlspecialchars.
      The result carries no markup character, and decoding its entities gives back the
      trimmed, unslashed text. */
  function ValidateInput(input: string, quotes: bool): (r: string)
    ensures NoMarkup(r)
    ensures quotes ==> '\'' !in r
    ensures DecodeSpecialChars(r) == StripSlashes(Trim(input))
  {
    var clean := StripSlashes(Trim(input));
    DecodeInvertsHtmlSpecialChars(clean, quotes);
    HtmlSpecialChars(clean, quotes)
  }

  /** Text that is already trimmed and holds no backslash comes back unchanged from decoding
      the sanitised value. */
  lemma ValidateInputKeepsPlainText(input: string, quotes: bool)
    requires '\\' !in input
    requires input == [] || (!IsTrimChar(input[0]) && !IsTrimChar(input[|input| - 1]))
    ensures DecodeSpecialChars(ValidateInput(input, quotes)) == input
  {
    Text.TrimUnique([], input, [], IsTrimChar);
    assert [] + input + [] == input;
  }

  /** Because trimming runs before stripslashes, a sanitised value can still end in whitespace:
      a space followed by a lone backslash survives trim and loses only the backslash. */
  lemma SanitisedValueMayEndInSpace()
    ensures ValidateInput("a \\", false) == "a "
  {
    var s := "a \\";
    Text.TrimUnique([], s, [], IsTrimChar);
    assert [] + s + [] == s;
    assert StripSlashes(s) == "a ";
  }

  /** substr() from offset 0: the first `n` bytes, or all of `s` if it is shorter. */
  function Prefix(s: string, n: nat): (r: string)
    ensures |r| == if |s| < n then |s| else n
    ensures r == s[..|r|]
  {
    if |s| < n then s else s[..n]
  }
}

=== FILE: text.dfy ===
/** Character-level string helpers shared by the PHP and JavaScript models. */
module Text {
  import opened Wrappers

  /** Every character of `s` satisfies `p`. */
  predicate All(s: string, p: char -> bool) {
    forall i :: 0 <= i < |s| ==> p(s[i])
  }

  predicate StartsWith(s: string, prefix: string) {
    |prefix| <= |s| && s[..|prefix|] == prefix
  }

  predicate EndsWith(s: string, suffix: string) {
    |suffix| <= |s| && s[|s| - |suffix|..] == suffix
  }

  /** `s` without its leading `prefix`, if it has one. */
  function StripPrefix(s: string, prefix: string): (r: Option<string>)
    ensures r.Some? <==> StartsWith(s, prefix)
    ensures r.Some? ==> s == prefix + r.value
  {
    if StartsWith(s, prefix) then Some(s[|prefix|..]) else None
  }

  /** `s` without its trailing `suffix`, if it has one. */
  function StripSuffix(s: string, suffix: string): (r: Option<string>)
    ensures r.Some? <==> EndsWith(s, suffix)
    ensures r.Some? ==> s == r.value + suffix
  {
    if EndsWith(s, suffix) then Some(s[..|s| - |suffix|]) else None
  }

  /** The text before the first newline of `s` and the text after it. */
  function SplitLine(s: string): (r: Option<(string, string)>)
    ensures r.None? <==> '\n' !in s
    ensures r.Some? ==> '\n' !in r.value.0 && s == r.value.0 + "\n" + r.value.1
    decreases |s|
  {
    if |s| == 0 then None
    else if s[0] == '\n' then Some(("", s[1..]))
    else
      match SplitLine(s[1..])
      case None => None
      case Some(p) =>
        assert s == [s[0]] + s[1..];
        Some(([s[0]] + p.0, p.1))
  }

  lemma StripPrefixOf(prefix: string, rest: string)
    ensures StripPrefix(prefix + rest, prefix) == Some(rest)
  {
    assert (prefix + rest)[..|prefix|] == prefix;
  }

  lemma StripSuffixOf(front: string, suffix: string)
    ensures StripSuffix(front + suffix, suffix) == Some(front)
  {
    var s := front + suffix;
    assert s[|s| - |suffix|..] == suffix;
    assert s[..|s| - |suffix|] == front;
  }

  /** A line without a newline is split off exactly. */
  lemma {:induction false} SplitLineOf(line: string, rest: string)
    requires '\n' !in line
    ensures SplitLine(line + "\n" + rest) == Some((line, rest))
  {
    var s := line + "\n" + rest;
    if |line| == 0 {
      assert s == "\n" + rest;
      assert s[1..] == rest;
    } else {
      assert s[0] == line[0];
      assert s[1..] == line[1..] + "\n" + rest;
      SplitLineOf(line[1..], rest);
      assert [s[0]] + line[1..] == line;
    }
  }

  // ---------------------------------------------------------------------------
  // Trimming by a whitespace predicate

  /** `s` with its leading `ws` characters removed. */
  function TrimLeft(s: string, ws: char -> bool): (r: string)
    ensures |r| <= |s| && r == s[|s| - |r|..]
    ensures All(s[..|s| - |r|], ws)
    ensures r == [] || !ws(r[0])
    decreases |s|
  {
    if |s| > 0 && ws(s[0]) then
      var r := TrimLeft(s[1..], ws);
      assert s[..|s| - |r|] == [s[0]] + s[1..][..|s[1..]| - |r|];
      r
    else s
  }

  /** `s` with its trailing `ws` characters removed. */
  function TrimRight(s: string, ws: char -> bool): (r: string)
    ensures |r| <= |s| && r == s[..|r|]
    ensures All(s[|r|..], ws)
    ensures r == [] || !ws(r[|r| - 1])
    decreases |s|
  {
    if |s| > 0 && ws(s[|s| - 1]) then
      var r := TrimRight(s[..|s| - 1], ws);
      assert s[|r|..] == s[..|s| - 1][|r|..] + [s[|s| - 1]];
      r
    else s
  }

  /** Where the trimmed text starts inside `s`. */
  function TrimStart(s: string, ws: char -> bool): nat
  {
    |s| - |TrimLeft(s, ws)|
  }

  /** `s` with the `ws` characters at both ends removed: a slice of `s` whose borders are all
      whitespace and whose own first and last characters are not. */
  function Trim(s: string, ws: char -> bool): (r: string)
    ensures TrimStart(s, ws) + |r| <= |s|
    ensures r == s[TrimStart(s, ws)..TrimStart(s, ws) + |r|]
    ensures All(s[..TrimStart(s, ws)], ws) && All(s[TrimStart(s, ws) + |r|..], ws)
    ensures r == [] || (!ws(r[0]) && !ws(r[|r| - 1]))
  {
    var t := TrimLeft(s, ws);
    var r := TrimRight(t, ws);
    var k := TrimStart(s, ws);
    assert t == s[k..];
    assert s[k..k + |r|] == t[..|r|] == r;
    assert s[k + |r|..] == t[|r|..];
    r
  }

  lemma {:induction false} TrimLeftOf(a: string, t: string, ws: char -> bool)
    requires All(a, ws)
    requires t == [] || !ws(t[0])
    ensures TrimLeft(a + t, ws) == t
    decreases |a|
  {
    if |a| > 0 {
      assert (a + t)[0] == a[0];
      assert (a + t)[1..] == a[1..] + t;
      TrimLeftOf(a[1..], t, ws);
    } else {
      assert a + t == t;
    }
  }

  lemma {:induction false} TrimRightOf(t: string, b: string, ws: char -> bool)
    requires All(b, ws)
    requires t == [] || !ws(t[|t| - 1])
    ensures TrimRight(t + b, ws) == t
    decreases |b|
  {
    if |b| > 0 {
      var s := t + b;
      assert s[|s| - 1] == b[|b| - 1];
      assert s[..|s| - 1] == t + b[..|b| - 1];
      TrimRightOf(t, b[..|b| - 1], ws);
    } else {
      assert t + b == t;
    }
  }

  /** Trimming is determined by its result: whatever whitespace surrounds a core whose ends are
      not whitespace, trimming returns exactly that core. */
  lemma TrimUnique(a: string, core: string, b: string, ws: char -> bool)
    requires All(a, ws) && All(b, ws)
    requires core == [] || (!ws(core[0]) && !ws(core[|core| - 1]))
    ensures Trim(a + core + b, ws) == core
  {
    if core == [] {
      assert a + core + b == (a + b) + [];
      assert All(a + b, ws) by {
        forall i | 0 <= i < |a + b| ensures ws((a + b)[i]) {
          if i < |a| { assert (a + b)[i] == a[i]; } else { assert (a + b)[i] == b[i - |a|]; }
        }
      }
      TrimLeftOf(a + b, [], ws);
    } else {
      assert a + core + b == a + (core + b);
      assert (core + b)[0] == core[0];
      TrimLeftOf(a, core + b, ws);
      TrimRightOf(core, b, ws);
    }
  }

  /** Trimming twice is trimming once. */
  lemma TrimIdempotent(s: string, ws: char -> bool)
    ensures Trim(Trim(s, ws), ws) == Trim(s, ws)
  {
    var r := Trim(s, ws);
    TrimUnique([], r, [], ws);
    assert [] + r + [] == r;
  }
}

=== FILE: wrappers.dfy ===
/** Failure-compatible Option and Result types, usable with `:-`. */
module Wrappers {

  /** A value that may be absent: a missing key, an unparsable reply, an undefined property. */
  datatype Option<+T> = None | Some(value: T) {

    predicate IsFailure() {
      None?
    }

    function PropagateFailure<U>(): Option<U>
      requires None?
    {
      None
    }

    function Extract(): T
      requires Some?
    {
      value
    }
  }

  /** Either a computed value or the reason it could not be computed. */
  datatype Result<+R, +E> = Success(value: R) | Failure(error: E) {

    predicate IsFailure() {
      Failure?
    }

    function PropagateFailure<U>(): Result<U, E>
      requires Failure?
    {
      Failure(error)
    }

    function Extract(): R
      requires Success?
    {
      value
    }
  }
}
